=== FILE: README.md ===
# Query resolution and budget fallback of the property-search chatbot

This project models the AI layer of a real-estate chatbot (`ai_core.py`). A user's
conversation turns into a filter map for the property search, and the matching rows
get a short summary. The model covers four pieces:

- **The transcript.** `parse_query_with_context` reads two things from the transcript
  before it calls the remote language model:
  - the role-tagged history text: one `role: content` line per dict entry, joined
    with newlines;
  - the last filters: the `filters` of the latest earlier entry whose `filters` is
    truthy, found by a backward scan that skips the final entry.
- **The resolver.** A function call from the language model is returned as is. When
  there is no call, or the call raises, the result is that of the deterministic
  fallback parser, errors included.
- **The fallback parser** (`fallback_regex_parser`). It reads only the latest message.
  The first `between X and|- Y cr` phrase, matched case-insensitively, sets both
  budget bounds. Otherwise the first `under|below Y cr` phrase sets the upper bound.
  Otherwise the result is empty. Each captured number goes through Python's `float()`,
  which can raise `ValueError`.
- **The summary** (`generate_summary`). No rows give a fixed apology. Otherwise the
  model is shown the first three rows, and a fixed text stands in when it raises.

The language model is a parameter of the model, a pure function from the request it
is sent to its reply:

- `Resolver.Response` is `FunctionCall(args) | NoCall | Raises`;
- `Summary.SummaryResponse` is `Text(t) | SummaryRaises`.

The two regular expressions are instances of a small pattern language (`Pattern`):
literal words, two-way alternatives, `\s*` and `[\d\.]+`. It comes with:

- a declarative semantics: `MatchesAt`, which says where each element's match ends;
- a deterministic greedy matcher: `Run` and `Search`;
- a proof that the matcher is sound, for every pattern;
- proofs that it is complete and that the search finds the leftmost match. These
  hold for patterns where no run of spaces or digits can overrun the element that
  follows it, and where the two words of an alternation start with different
  letters (ignoring ASCII case). Both patterns of the parser have that form
  (`Fallback.PatternsWellFormed`).

Numbers are exact rationals (`real`), and Python exceptions are `Results.Error` values.

Modules: `Results` (option, result, the Python exceptions), `Text` (character
classes, ASCII case folding, join/split), `Pattern`, `Decimal` (`float()` on a run of
digits and dots), `Transcript`, `Fallback`, `Resolver`, `Summary`, and `Examples`
(worked messages).

## Model

| member | source | states |
|---|---|---|
| Text.Join | ai_core.py:41 | `"\n".join`: no lines give the empty text; otherwise the text starts with the first line, a newline follows it when more lines follow, and its length is the line lengths plus one separator per gap |
| Text.SplitJoin | ai_core.py:41 | Joining newline-free lines with `"\n"` and splitting the result on newlines gives the lines back |
| Pattern.SpanEnd | ai_core.py:97 | `\s*` and `[\d\.]+` consume the longest run of their class from the start position: everything before the end is in the class, and the end is the string's end or a character outside it |
| Pattern.Search | ai_core.py:97-98 | `re.search`: a match it reports lies within the message and satisfies the declarative semantics at its start (leftmost and complete by `SearchIsLeftmost`) |
| Pattern.Run | ai_core.py:97-98 | A match the greedy matcher reports satisfies the declarative semantics at that position with those cut points |
| Pattern.RunComplete | ai_core.py:97-98 | For a well-formed pattern, any declarative match at a position is exactly what the greedy matcher returns there, so the cut points of a match are unique |
| Pattern.SearchIsLeftmost | ai_core.py:97-98 | `re.search` finds a match iff one exists anywhere; the match found starts at the leftmost position where any match starts, and its cut points are the only ones there |
| Pattern.Groups | ai_core.py:102-105 | The captured groups of a match, one per `[\d\.]+` element: each is non-empty and made only of digits and dots (which text each holds is stated by `NumGroupStopsRight`, `Fallback.BetweenGroups` and `Fallback.UnderGroup`) |
| Pattern.MatchesTail | ai_core.py:97-98 | A match of a non-empty pattern is its first element's match then a match of the rest, and its groups are the first element's capture then the rest's groups |
| Pattern.NumGroupStopsRight | ai_core.py:97-98 | A capture followed by something that cannot begin with a digit or a dot holds exactly the text it spans, every character of it a digit or a dot, and the character after it is neither: the whole `[\d\.]` run at its place |
| Pattern.CaptureAtTwo | ai_core.py:97-98 | When the third element is the first capture, the groups are its text (a whole `[\d\.]` run) followed by the groups of the rest of the pattern |
| Pattern.SearchIgnoresCase | ai_core.py:97-98 | Under `re.IGNORECASE`, strings that agree up to ASCII case give the same search result and the same captured groups |
| Decimal.ToFloat | ai_core.py:102-105 | `float()` of a captured number: a value is always non-negative (its value per form is stated by `ToFloatDigits` and `ToFloatPoint`) |
| Decimal.ToFloatAccepts | ai_core.py:102-105 | On a run of digits and dots, `float()` succeeds exactly when the run has at most one dot and at least one digit |
| Decimal.ToFloatPoint | ai_core.py:102-105 | `whole.frac` with all-digit parts, not both empty (`1.5`, `1.`, `.5`), converts to `whole + frac / 10^len(frac)` |
| Decimal.ToFloatDigits | ai_core.py:102-105 | A dotless run of digits (`2`) converts to the number it denotes |
| Decimal.ToFloatRender | ai_core.py:102-105 | Round trip: rendering `m / 10^k` as a decimal with `k` fraction digits and converting it gives back exactly `m / 10^k` |
| Fallback.BetweenGroups | ai_core.py:97-103 | `match.group(1)` and `match.group(2)` of a `between` match are the texts between the cut points of its two captures, and each is followed by a character that is neither a digit nor a dot |
| Fallback.TwoCaptures | ai_core.py:97-103 | A nine-element pattern with captures at elements 2 and 6, each followed by something that cannot begin with a digit or a dot, yields exactly those two texts as its groups |
| Fallback.UnderGroup | ai_core.py:98-105 | `match.group(1)` of an `under`/`below` match is the text between the cut points of its capture, followed by a character that is neither a digit nor a dot |
| Fallback.PatternsWellFormed | ai_core.py:97-98 | Both budget patterns meet the condition under which greedy matching is complete |
| Fallback.AsFilters | ai_core.py:100-105 | The filter map holds only the budget keys; the minimum only for a range, the maximum for a range or a ceiling, each holding that bound |
| Fallback.Convert | ai_core.py:102-105 | A converted group is non-negative; a failed conversion raises `ValueError` naming that text |
| Fallback.ReadBudget | ai_core.py:97-105 | Every bound read is non-negative; the only error is `ValueError` |
| Fallback.CeilingBudget | ai_core.py:104-105 | Without a range phrase the budget is never a range; the only error is `ValueError` |
| Fallback.BudgetFilters | ai_core.py:97-108 | The parser's map has no keys but the two budget keys, never a minimum without a maximum, and fails only with `ValueError` (the map per phrase is stated by `FallbackBetween`, `FallbackUnderOnly` and `FallbackNoPhrase`) |
| Fallback.LatestContent | ai_core.py:95 | `chat_history[-1]['content']`: `IndexError` on an empty list, `TypeError` on a non-dict last entry, `KeyError('content')` on a dict without it, else that content |
| Fallback.FallbackRegexParser | ai_core.py:92-108 | An empty transcript raises `IndexError`; a non-dict last entry raises `TypeError`; a last dict without `content` raises `KeyError('content')`; a result holds only budget keys |
| Fallback.FallbackBetween | ai_core.py:92-108 | When the latest message's leftmost `between` match spans the numbers `lo` and `hi`, the parser returns exactly `{budget_min_cr: float(lo), budget_max_cr: float(hi)}`, or `ValueError(lo)`, or (when only `hi` fails) `ValueError(hi)` |
| Fallback.BetweenBudget | ai_core.py:97-103 | The same three outcomes for the budget, with the two numbers named by their place in the message |
| Fallback.ParserReadsBudget | ai_core.py:95-108 | The parser returns the map of the latest message's budget, or that budget's `ValueError` |
| Fallback.RangeAsFilters | ai_core.py:102-103 | A range becomes exactly the two-key map `{budget_min_cr: lo, budget_max_cr: hi}` |
| Fallback.FallbackUnderOnly | ai_core.py:92-108 | With no `between` match in the latest message and a leftmost `under`/`below` match spanning the number `hi`, the parser returns exactly `{budget_max_cr: float(hi)}` or raises `ValueError(hi)` |
| Fallback.FallbackNoPhrase | ai_core.py:92-108 | The parser returns exactly `{}` iff the latest message holds neither phrase anywhere |
| Fallback.FallbackReadsOnlyLatest | ai_core.py:95 | Only `content` of the last entry is read: transcripts whose last entries are dicts with the same `content` (or both lacking it) get the same fallback result, whatever their roles, filters or earlier entries |
| Fallback.BetweenTakesPrecedence | ai_core.py:101-103 | Given the leftmost `between` match, with or without an `under`/`below` phrase: two convertible groups give that range, otherwise the first unconvertible group (lower bound first) is the `ValueError` |
| Fallback.ReadBudgetFromRange | ai_core.py:101-103 | The same outcome stated for whatever match the search returns |
| Fallback.RangeFromGroups | ai_core.py:102-103 | The two conversions run in order: the lower bound's error wins, then the upper bound's, else both values form the range |
| Fallback.CeilingBudgetFromMatch | ai_core.py:104-105 | When the `under`/`below` search succeeds, its group converts to the ceiling or raises `ValueError` naming that text |
| Fallback.UnderSetsOnlyMax | ai_core.py:104-105 | With no `between` match anywhere, the leftmost `under`/`below` match sets only the maximum, or its unconvertible number raises |
| Fallback.BudgetFollowsPhrases | ai_core.py:97-106 | No budget at all iff neither phrase matches anywhere; a range only when a `between` phrase matches |
| Fallback.ReadBudgetBySearch | ai_core.py:101-106 | No budget iff both searches fail; a range only when the `between` search succeeds |
| Fallback.ReadBudgetFoundRange | ai_core.py:101-103 | A successful `between` search gives a range or an error, never a ceiling or nothing |
| Fallback.CeilingBudgetBySearch | ai_core.py:104-106 | Without a range phrase, there is no budget iff the `under`/`below` search fails |
| Fallback.BudgetIgnoresCase | ai_core.py:97-98 | ASCII lower-casing or ASCII upper-casing of the message (only the letters A-Z and a-z change) leaves the budget unchanged |
| Fallback.FoldedQuerySameBudget | ai_core.py:97-98 | Messages that agree up to ASCII case give the same budget |
| Fallback.FoldedQuerySameCeiling | ai_core.py:98 | Messages that agree up to ASCII case give the same `under`/`below` reading |
| Examples.RangeQueryBudget | ai_core.py:97-103 | The message `between 1 and 2.5 cr` gives the range 1 to 2.5 |
| Examples.DoubleDotFails | ai_core.py:105 | `float('1..2')` raises |
| Examples.MalformedQueryRaises | ai_core.py:98-105 | The message `under 1..2 cr` has no range phrase; its `under` phrase is found, and the run `1..2` raises `ValueError` |
| Examples.RangeTurnWithoutCall | ai_core.py:83-85 | A one-message conversation `between 1 and 2.5 cr` with a language model that makes no function call gives `{budget_min_cr: 1, budget_max_cr: 2.5}` |
| Transcript.EntryLine | ai_core.py:41 | One entry's contribution: nothing for a non-dict; `KeyError('role')` when `role` is missing (read first), else `KeyError('content')` when `content` is missing; else its one `role: content` line |
| Transcript.HistoryLines | ai_core.py:41 | The comprehension fails iff some dict lacks `role` or `content`; the first such dict decides the error (`role` checked first) |
| Transcript.FormatHistory | ai_core.py:41 | The history text exists iff no dict lacks a key; otherwise `KeyError('role')` or `KeyError('content')` |
| Transcript.Dicts | ai_core.py:41 | The `isinstance(msg, dict)` filter: everything kept is a dict, and an entry is kept iff it is a dict of the transcript |
| Transcript.DictsAppend | ai_core.py:41 | The filter distributes over concatenation, so with `DictsSingle` it keeps the dict entries in transcript order with their repetitions |
| Transcript.DictsSingle | ai_core.py:41 | On one entry the filter keeps it iff it is a dict |
| Transcript.HistorySkipsNonDicts | ai_core.py:41 | Non-dict entries neither add lines nor raise: the text equals that of the dict entries alone |
| Transcript.HistoryLinesInOrder | ai_core.py:41 | A transcript of complete dicts gives one `role: content` line per entry, in order |
| Transcript.FormatHistorySplits | ai_core.py:41 | Splitting the history text on newlines recovers each entry's line, when no role or content holds a newline |
| Transcript.LastFiltersBefore | ai_core.py:45-49 | The scan over indices below `n` returns the `filters` of the highest index whose `filters` is truthy, else `{}` |
| Transcript.LastFilters | ai_core.py:44-49 | `last_filters` is the latest truthy `filters` before the final entry, `{}` if none, and always `{}` for a transcript of at most one entry |
| Resolver.ContextRequest | ai_core.py:41-49 | The request exists iff every dict is complete; otherwise the uncaught error is `KeyError('role')` or `KeyError('content')`; it carries `last_filters` |
| Resolver.ParseQueryWithContext | ai_core.py:33-89 | An incomplete dict always raises `KeyError`, and `KeyError` means one exists; `IndexError` only for an empty transcript; `TypeError` only when the last entry is not a dict |
| Resolver.FunctionCallReturned | ai_core.py:78-82 | A function call's arguments are the result, unchanged |
| Resolver.NoCallFallsBack | ai_core.py:83-89 | Without a function call, whether none came back or the call raised, the result is the fallback parser's, its errors included |
| Resolver.OnlyRequestMatters | ai_core.py:71-89 | The language model is consulted once, on the context request: models that answer it alike give the same result |
| Resolver.FallbackOnlyBudget | ai_core.py:85-89 | A fallback result holds only the budget keys, and a minimum only with a maximum |
| Resolver.RequestListsDicts | ai_core.py:41 | For a complete transcript with at least one dict entry and no newline in any role or content, the history text sent splits on newlines into one `role: content` line per dict entry, in transcript order, and none for a non-dict entry |
| Summary.Sample | ai_core.py:123 | `head(3)` keeps the first `min(3, n)` rows, in order |
| Summary.GenerateSummary | ai_core.py:111-137 | No rows give the apology; with rows, the language model's reply text to the query and the first three rows is returned as is, and a raising model gives the fixed fallback text |
| Summary.EmptyIgnoresModel | ai_core.py:116-117 | With no rows the language model is never consulted: any two models give the apology |
| Summary.SummaryReadsOnlySample | ai_core.py:123 | Result sets with at least three rows that agree on their first three get the same summary |
| Summary.RaisingModelGivesFallback | ai_core.py:131-137 | With rows present, a raising language model is replaced by the fixed text |
| Summary.ApologyMeansNoRows | ai_core.py:116-117 | The apology means there were no rows, unless the language model itself replied with those exact words |

## Left out

- Prompts, model configuration, the function-call schema and the `print` calls are
  left out. They do not affect the result.
- The language model's behaviour is left out. It is a parameter of the model, and its
  replies are reduced to the three outcomes the code tells apart.
- `json.dumps` is left out. It is called on `last_filters` when the prompt is built
  and on the function-call arguments inside the `try` (line 81). On values of a
  client-library type it could raise: outside the `try` that error would propagate,
  and inside it the fallback would run. Filter values here are plain JSON-like data
  (`Transcript.Value`), so neither case arises.
- Unicode is not modelled fully:
  - `\d` is modelled as the ASCII digits. Python's `\d` and `float()` also accept
    other Unicode decimal digits.
  - `re.IGNORECASE` is modelled as ASCII case folding. None of the pattern letters
    (`b e t w n a d c r u l o`) has a non-ASCII case partner in Python's `re`.
- Fallback.BudgetIgnoresCase: covers ASCII case changes only. Python's `str.lower` and
  `str.upper` also change non-ASCII letters and can change the length (`'ß'.upper()`
  is `'SS'`), and that is not modelled.
- Decimal.ToFloat: the value is the exact rational the digits denote, not the nearest
  IEEE double that `float()` returns.
- Over/above phrases, Lakh-to-Crore conversion and merging with the last filters
  are not modelled. The prompt asks the language model for them, but no code in
  `ai_core.py` does them.
- Transcript.Entry: entries are either dicts with string `role`/`content` and a
  filter-map `filters`, or non-dicts. Other Python values in those keys (a non-string
  content, a truthy non-dict `filters`) are not modelled.
- Summary.GenerateSummary: a result table is a sequence of rows. A table with rows
  but no columns (which pandas also calls empty) is not modelled, and neither is
  the JSON serialisation of the sample.
- `app.py` is not part of this model: the web interface, the CSV loading and the
  pandas search that produces the rows.

## Errors that reach the caller

The resolver does not catch every error, and the model keeps them:

- The history text and the last filters (lines 41-49) are computed before the `try`,
  so a dict without `role` or `content` raises `KeyError` to the caller.
- The fallback parser is called inside the `except` handler (line 89) as well as
  inside the `try` (line 85). Its `IndexError`, `TypeError` or `ValueError` escapes
  either way (`Resolver.NoCallFallsBack`, `Resolver.ParseQueryWithContext`).
- Lines 82, 85 and 89 return the filter map as it is: the fallback's partial map is
  not merged into the last filters (`Resolver.FallbackOnlyBudget`).

=== FILE: decimal.dfy ===
/** Python's `float()` applied to a captured run of `[\d\.]`, computed
    exactly as a rational number instead of an IEEE double. */
module Decimal {
  import opened Results
  import opened Text

  predicate AllDigits(t: string) {
    forall k :: 0 <= k < |t| ==> IsDigit(t[k])
  }

  function DigitValue(c: char): nat
    requires IsDigit(c)
  {
    c as int - '0' as int
  }

  /** The value of a string of decimal digits, most significant first. */
  function DigitsValue(ds: string): nat
    requires AllDigits(ds)
    decreases |ds|
  {
    if |ds| == 0 then 0 else DigitsValue(ds[..|ds| - 1]) * 10 + DigitValue(ds[|ds| - 1])
  }

  function Pow10(n: nat): (p: nat)
    ensures p >= 1
  {
    if n == 0 then 1 else 10 * Pow10(n - 1)
  }

  /** Length of the longest all-digit prefix of `t`. */
  function LeadingDigits(t: string): (d: nat)
    ensures d <= |t| && AllDigits(t[..d])
    ensures d < |t| ==> !IsDigit(t[d])
    decreases |t|
  {
    if |t| > 0 && IsDigit(t[0]) then
      var d := 1 + LeadingDigits(t[1..]);
      assert t[..d] == [t[0]] + t[1..][..d - 1];
      d
    else 0
  }

  /** `float(t)`: digits with at most one decimal point and at least one
      digit somewhere; `None` where Python raises `ValueError`.  Signs,
      exponents, underscores and surrounding blanks are also accepted by
      Python, but a `[\d\.]+` capture never contains them. */
  function ToFloat(t: string): (r: Option<real>)
    ensures r.Some? ==> r.value >= 0.0
  {
    var d := LeadingDigits(t);
    if d == |t| then
      if d == 0 then None else Some(DigitsValue(t) as real)
    else if t[d] != '.' then None
    else
      var whole, frac := t[..d], t[d + 1..];
      if LeadingDigits(frac) < |frac| || (d == 0 && |frac| == 0) then None
      else Some(PointValue(whole, frac))
  }

  /** The number written `whole.frac`. */
  function PointValue(whole: string, frac: string): real
    requires AllDigits(whole) && AllDigits(frac)
  {
    DigitsValue(whole) as real + DigitsValue(frac) as real / Pow10(|frac|) as real
  }

  ghost predicate AtMostOneDot(t: string) {
    forall a, b :: 0 <= a < b < |t| && t[a] == '.' ==> t[b] != '.'
  }

  ghost predicate HasDigit(t: string) {
    exists k :: 0 <= k < |t| && IsDigit(t[k])
  }

  /** On a run of digits and dots, `float()` succeeds exactly when the run
      has at most one dot and at least one digit: `1..2` and `.` fail,
      `1.`, `.5` and `1.5` convert. */
  lemma ToFloatAccepts(t: string)
    requires forall k :: 0 <= k < |t| ==> IsNumChar(t[k])
    ensures ToFloat(t).Some? <==> AtMostOneDot(t) && HasDigit(t)
  {
    var d := LeadingDigits(t);
    if d == |t| {
      assert t[..d] == t;
      if d > 0 {
        assert IsDigit(t[0]);
      }
    } else {
      assert t[d] == '.';
      var frac := t[d + 1..];
      assert forall k :: 0 <= k < d ==> t[..d][k] == t[k];
      assert forall j :: 0 <= j < |frac| ==> frac[j] == t[d + 1 + j];
      if AllDigits(frac) {
        forall a, b | 0 <= a < b < |t| && t[a] == '.'
          ensures t[b] != '.'
        {
          if a == d {
            assert frac[b - d - 1] == t[b];
          }
        }
        if d > 0 {
          assert IsDigit(t[0]);
        } else if |frac| > 0 {
          assert IsDigit(t[d + 1]);
        } else {
          forall k | 0 <= k < |t|
            ensures !IsDigit(t[k])
          {
            assert k == d;
          }
        }
      } else {
        var k :| 0 <= k < |frac| && !IsDigit(frac[k]);
        assert t[d + 1 + k] == frac[k] == '.';
      }
    }
  }

  // --- Rendering, the partner of ToFloat ------------------------------------

  function DigitChar(n: nat): (c: char)
    requires n < 10
    ensures IsDigit(c) && DigitValue(c) == n
  {
    ('0' as int + n) as char
  }

  /** The decimal digits of `m`, without leading zeros. */
  function NatDigits(m: nat): (ds: string)
    ensures |ds| > 0 && AllDigits(ds)
    ensures DigitsValue(ds) == m
    decreases m
  {
    if m < 10 then [DigitChar(m)]
    else
      var ds := NatDigits(m / 10) + [DigitChar(m % 10)];
      assert ds[..|ds| - 1] == NatDigits(m / 10);
      ds
  }

  lemma {:induction false} DigitsValueAppend(a: string, b: string)
    requires AllDigits(a) && AllDigits(b)
    ensures AllDigits(a + b)
    ensures DigitsValue(a + b) == DigitsValue(a) * Pow10(|b|) + DigitsValue(b)
    decreases |b|
  {
    if |b| == 0 {
      assert a + b == a;
    } else {
      var b' := b[..|b| - 1];
      assert (a + b)[..|a + b| - 1] == a + b';
      DigitsValueAppend(a, b');
    }
  }

  lemma {:induction false} ZerosValue(n: nat)
    ensures AllDigits(seq(n, _ => '0'))
    ensures DigitsValue(seq(n, _ => '0')) == 0
  {
    if n > 0 {
      assert seq(n, _ => '0')[..n - 1] == seq(n - 1, _ => '0');
      ZerosValue(n - 1);
    }
  }

  /** The digits of `m`, zero-padded on the left to more than `k` digits. */
  function PaddedDigits(m: nat, k: nat): (ds: string)
    ensures |ds| > k && AllDigits(ds) && DigitsValue(ds) == m
  {
    var ds := NatDigits(m);
    if |ds| <= k then
      ZerosValue(k + 1 - |ds|);
      DigitsValueAppend(seq(k + 1 - |ds|, _ => '0'), ds);
      seq(k + 1 - |ds|, _ => '0') + ds
    else ds
  }

  /** `m / 10^k` written with exactly `k` digits after the point. */
  function Render(m: nat, k: nat): (t: string)
  {
    var ds := PaddedDigits(m, k);
    ds[..|ds| - k] + "." + ds[|ds| - k..]
  }

  lemma ToFloatPoint(whole: string, frac: string)
    requires |whole| + |frac| > 0 && AllDigits(whole) && AllDigits(frac)
    ensures ToFloat(whole + "." + frac) == Some(PointValue(whole, frac))
  {
    var t := whole + ("." + frac);
    assert t == whole + "." + frac;
    LeadingDigitsStop(whole, "." + frac);
    var d := LeadingDigits(t);
    assert d == |whole| && d < |t| && t[d] == '.';
    assert t[..d] == whole;
    assert t[d + 1..] == frac;
    LeadingDigitsAll(frac);
  }

  /** A dotless run of digits converts to the number it denotes. */
  lemma ToFloatDigits(w: string)
    requires |w| > 0 && AllDigits(w)
    ensures ToFloat(w) == Some(DigitsValue(w) as real)
  {
    LeadingDigitsAll(w);
  }

  lemma LeadingDigitsAll(t: string)
    requires AllDigits(t)
    ensures LeadingDigits(t) == |t|
  {
  }

  /** Moving the point: `whole.frac` is the digits `whole frac` over `10^|frac|`. */
  lemma PointValueShift(whole: string, frac: string)
    requires AllDigits(whole) && AllDigits(frac)
    ensures AllDigits(whole + frac)
    ensures PointValue(whole, frac) == DigitsValue(whole + frac) as real / Pow10(|frac|) as real
  {
    DigitsValueAppend(whole, frac);
    ShiftPoint(DigitsValue(whole), DigitsValue(frac), Pow10(|frac|), DigitsValue(whole + frac));
  }

  /** `w + f / p` written over the common denominator `p`. */
  lemma ShiftPoint(w: nat, f: nat, p: nat, n: nat)
    requires p > 0 && n == w * p + f
    ensures w as real + f as real / p as real == n as real / p as real
  {
    var W, F, P := w as real, f as real, p as real;
    assert n as real == W * P + F;
    DivideSum(W, F, P);
  }

  lemma DivideSum(w: real, f: real, p: real)
    requires p > 0.0
    ensures (w * p + f) / p == w + f / p
  {
    assert (f / p) * p == f;
  }

  /** Round trip: converting a rendered decimal gives back its exact value. */
  lemma ToFloatRender(m: nat, k: nat)
    ensures ToFloat(Render(m, k)) == Some(m as real / Pow10(k) as real)
  {
    var ds := PaddedDigits(m, k);
    var whole, frac := ds[..|ds| - k], ds[|ds| - k..];
    assert ds == whole + frac;
    assert AllDigits(whole) && AllDigits(frac);
    ToFloatPoint(whole, frac);
    PointValueShift(whole, frac);
  }

  lemma {:induction false} LeadingDigitsStop(a: string, b: string)
    requires AllDigits(a)
    requires |b| > 0 && !IsDigit(b[0])
    ensures LeadingDigits(a + b) == |a|
    decreases |a|
  {
    if |a| > 0 {
      assert (a + b)[1..] == a[1..] + b;
      LeadingDigitsStop(a[1..], b);
    } else {
      assert a + b == b;
    }
  }
}

=== FILE: examples.dfy ===
/** Worked messages: what the fallback parser reads from a few concrete
    user messages. */
module Examples {
  import opened Results
  import opened Text
  import opened Pattern
  import opened Decimal
  import opened Transcript
  import opened Fallback
  import opened Resolver

  const RangeQuery: string := "between 1 and 2.5 cr"
  const RangeCuts: seq<nat> := [7, 8, 9, 10, 13, 14, 17, 18, 20]

  /** `\s*cr` at the end of the message. */
  lemma RangeQueryMatchesFrom7()
    ensures MatchesAt(BetweenPattern[7..], RangeQuery, 17, RangeCuts[7..])
  {
    var p, q, c := BetweenPattern, RangeQuery, RangeCuts;
    assert MatchesAt(p[9..], q, 20, c[9..]);
    assert IsSpace(q[17]) && WordAt(q, 18, "cr");
    assert p[7..][1..] == p[8..] && p[8..][1..] == p[9..];
  }

  /** `\s*([\d\.]+)` capturing `2.5`. */
  lemma RangeQueryMatchesFrom5()
    ensures MatchesAt(BetweenPattern[5..], RangeQuery, 13, RangeCuts[5..])
  {
    var p, q, c := BetweenPattern, RangeQuery, RangeCuts;
    RangeQueryMatchesFrom7();
    assert IsSpace(q[13]) && IsNumChar(q[14]) && IsNumChar(q[15]) && IsNumChar(q[16]);
    assert p[5..][1..] == p[6..] && p[6..][1..] == p[7..];
    assert c[5..][1..] == c[6..] && c[6..][1..] == c[7..];
  }

  /** `(?:and|-)`: the first alternative. */
  lemma RangeQueryMatchesFrom4()
    ensures MatchesAt(BetweenPattern[4..], RangeQuery, 10, RangeCuts[4..])
  {
    var p, q, c := BetweenPattern, RangeQuery, RangeCuts;
    RangeQueryMatchesFrom5();
    assert p[4] == Alt("and", "-") && WordAt(q, 10, "and");
    assert p[4..][1..] == p[5..] && c[4..][1..] == c[5..];
  }

  /** `\s*` before it. */
  lemma RangeQueryMatchesFrom3()
    ensures MatchesAt(BetweenPattern[3..], RangeQuery, 9, RangeCuts[3..])
  {
    var p, q, c := BetweenPattern, RangeQuery, RangeCuts;
    RangeQueryMatchesFrom4();
    assert IsSpace(q[9]);
    assert p[3..][1..] == p[4..] && c[3..][1..] == c[4..];
  }

  /** `\s*([\d\.]+)` capturing `1`. */
  lemma RangeQueryMatchesFrom1()
    ensures MatchesAt(BetweenPattern[1..], RangeQuery, 7, RangeCuts[1..])
  {
    var p, q, c := BetweenPattern, RangeQuery, RangeCuts;
    RangeQueryMatchesFrom3();
    assert IsSpace(q[7]) && IsNumChar(q[8]);
    assert p[1..][1..] == p[2..] && p[2..][1..] == p[3..];
    assert c[1..][1..] == c[2..] && c[2..][1..] == c[3..];
  }

  /** The whole `between` pattern matches the message from its first character. */
  lemma RangeQueryMatches()
    ensures MatchesAt(BetweenPattern, RangeQuery, 0, RangeCuts)
  {
    RangeQueryMatchesFrom1();
    assert WordAt(RangeQuery, 0, "between");
  }

  lemma RangeQuerySlices()
    ensures RangeQuery[8..9] == "1" && RangeQuery[14..17] == "2.5"
  {
  }

  lemma RangeQueryGroupsFrom5()
    ensures MatchesAt(BetweenPattern[5..], RangeQuery, 13, RangeCuts[5..])
    ensures Groups(BetweenPattern[5..], RangeQuery, 13, RangeCuts[5..]) == ["2.5"]
  {
    var p, q, c := BetweenPattern, RangeQuery, RangeCuts;
    RangeQueryMatchesFrom5();
    RangeQuerySlices();
    assert p[5..][1..] == p[6..] && p[6..][1..] == p[7..];
    assert c[5..][1..] == c[6..] && c[6..][1..] == c[7..];
    assert p[7..][1..] == p[8..] && p[8..][1..] == p[9..];
    assert Groups(p[7..], q, 17, c[7..]) == [];
  }

  lemma RangeQueryGroupsFrom1()
    ensures MatchesAt(BetweenPattern[1..], RangeQuery, 7, RangeCuts[1..])
    ensures Groups(BetweenPattern[1..], RangeQuery, 7, RangeCuts[1..]) == ["1", "2.5"]
  {
    var p, q, c := BetweenPattern, RangeQuery, RangeCuts;
    RangeQueryMatchesFrom1();
    RangeQueryMatchesFrom3();
    RangeQueryGroupsFrom5();
    RangeQuerySlices();
    assert p[3..][1..] == p[4..] && p[4..][1..] == p[5..];
    assert c[3..][1..] == c[4..] && c[4..][1..] == c[5..];
    assert Groups(p[3..], q, 9, c[3..]) == ["2.5"];
    assert p[1..][1..] == p[2..] && p[2..][1..] == p[3..];
    assert c[1..][1..] == c[2..] && c[2..][1..] == c[3..];
  }

  /** The two captured numbers are `1` and `2.5`. */
  lemma RangeQueryGroups()
    ensures MatchesAt(BetweenPattern, RangeQuery, 0, RangeCuts)
    ensures Groups(BetweenPattern, RangeQuery, 0, RangeCuts) == ["1", "2.5"]
  {
    RangeQueryMatches();
    RangeQueryGroupsFrom1();
  }

  /** "between 1 and 2.5 cr" asks for a budget of 1 to 2.5 Crore. */
  lemma RangeQueryBudget()
    ensures ReadBudget(RangeQuery) == Success(Range(1.0, 2.5))
  {
    RangeQueryGroups();
    BetweenTakesPrecedence(RangeQuery, 0, RangeCuts);
    NumberValues();
  }

  lemma NumberValues()
    ensures ToFloat("1") == Some(1.0) && ToFloat("2.5") == Some(2.5)
  {
    assert ToFloat("1") == Some(1.0);
    ToFloatPoint("2", "5");
    assert "2" + "." + "5" == "2.5";
  }

  const MalformedQuery: string := "under 1..2 cr"
  const MalformedCuts: seq<nat> := [5, 6, 10, 11, 13]

  /** A `between` match starts with a `b` or `B`. */
  lemma RangeStartsWithWord(s: string, i: nat, cuts: seq<nat>)
    requires MatchesAt(BetweenPattern, s, i, cuts)
    ensures i < |s| && LowerAscii(s[i]) == 'b'
  {
    assert BetweenPattern[0] == Lit("between");
    assert WordAt(s, i, "between");
    assert SameFold(s[i + 0], "between"[0]);
  }

  /** No character of the message folds to `b`. */
  lemma MalformedQueryHasNoB(i: nat)
    requires i < |MalformedQuery|
    ensures LowerAscii(MalformedQuery[i]) != 'b'
  {
    assert forall k :: 0 <= k < |MalformedQuery| ==> MalformedQuery[k] != 'b' && MalformedQuery[k] != 'B';
  }

  /** So there is no `between` phrase. */
  lemma MalformedQueryHasNoRange()
    ensures forall i: nat, c: seq<nat> :: i <= |MalformedQuery| ==> !MatchesAt(BetweenPattern, MalformedQuery, i, c)
  {
    var q := MalformedQuery;
    forall i: nat, c: seq<nat> | i <= |q| && MatchesAt(BetweenPattern, q, i, c)
      ensures false
    {
      RangeStartsWithWord(q, i, c);
      MalformedQueryHasNoB(i);
    }
  }

  lemma MalformedQueryMatchesFrom2()
    ensures MatchesAt(UnderPattern[2..], MalformedQuery, 6, MalformedCuts[2..])
  {
    var p, q, c := UnderPattern, MalformedQuery, MalformedCuts;
    assert MatchesAt(p[5..], q, 13, c[5..]);
    assert WordAt(q, 11, "cr");
    assert MatchesAt(p[4..], q, 11, c[4..]);
    assert IsSpace(q[10]);
    assert MatchesAt(p[3..], q, 10, c[3..]) by {
      assert p[3..][1..] == p[4..];
    }
    assert IsNumChar(q[6]) && IsNumChar(q[7]) && IsNumChar(q[8]) && IsNumChar(q[9]);
    assert p[2..][1..] == p[3..];
  }

  /** The `under` pattern matches from the first character and captures `1..2`. */
  lemma MalformedQueryGroups()
    ensures MatchesAt(UnderPattern, MalformedQuery, 0, MalformedCuts)
    ensures Groups(UnderPattern, MalformedQuery, 0, MalformedCuts) == ["1..2"]
  {
    var p, q, c := UnderPattern, MalformedQuery, MalformedCuts;
    MalformedQueryMatchesFrom2();
    assert WordAt(q, 0, "under") && IsSpace(q[5]);
    assert p[1..][1..] == p[2..] && c[1..][1..] == c[2..];
    assert p[2..][1..] == p[3..] && p[3..][1..] == p[4..] && p[4..][1..] == p[5..];
    assert q[6..10] == "1..2";
  }

  /** `float('1..2')` raises. */
  lemma DoubleDotFails()
    ensures ToFloat("1..2") == None
  {
    var t := "1..2";
    assert LeadingDigits(t) == 1 by {
      assert t[1..] == "..2";
    }
    assert t[2..] == ".2";
    assert LeadingDigits(".2") == 0;
  }

  /** "under 1..2 cr" raises `ValueError` for `1..2`: the phrase is found,
      and its number does not convert. */
  lemma MalformedQueryRaises()
    ensures ReadBudget(MalformedQuery) == Failure(ValueError("1..2"))
  {
    MalformedQueryHasNoRange();
    MalformedQueryGroups();
    UnderSetsOnlyMax(MalformedQuery, 0, MalformedCuts);
    DoubleDotFails();
  }

  /** A one-message conversation asking for 1 to 2.5 Crore. */
  const RangeTurn: seq<Entry> := [Message(Some("user"), Some(RangeQuery), None)]

  /** The fallback parser reads the only message. */
  lemma RangeTurnReadsMessage()
    ensures FallbackRegexParser(RangeTurn) == BudgetFilters(RangeQuery)
  {
    assert LatestContent(RangeTurn) == Success(RangeQuery);
  }

  /** A range becomes both budget filters. */
  lemma RangeFilters(query: string, lo: real, hi: real)
    requires ReadBudget(query) == Success(Range(lo, hi))
    ensures BudgetFilters(query) == Success(map[MinKey := Num(lo), MaxKey := Num(hi)])
  {
    assert BudgetFilters(query) == Success(AsFilters(Range(lo, hi)));
  }

  /** When the language model returns no function call, that is the result. */
  lemma RangeTurnWithoutCall()
    ensures ParseQueryWithContext(RangeTurn, _ => NoCall) ==
              Success(map[MinKey := Num(1.0), MaxKey := Num(2.5)])
  {
    assert Complete(RangeTurn);
    NoCallFallsBack(RangeTurn, _ => NoCall);
    RangeTurnReadsMessage();
    RangeQueryBudget();
    RangeFilters(RangeQuery, 1.0, 2.5);
  }
}

=== FILE: fallback.dfy ===
/** `fallback_regex_parser`: the deterministic budget extraction used when
    the collaborator gives no function call or raises.  It reads only the
    latest message and yields a partial filter map with at most the keys
    `budget_min_cr` and `budget_max_cr`. */
module Fallback {
  import opened Results
  import opened Text
  import opened Pattern
  import opened Decimal
  import opened Transcript

  const MinKey: string := "budget_min_cr"
  const MaxKey: string := "budget_max_cr"

  lemma KeysDistinct()
    ensures MinKey != MaxKey
  {
    assert MinKey[8] != MaxKey[8];
  }

  /** `between\s*([\d\.]+)\s*(?:and|-)\s*([\d\.]+)\s*cr`, ignoring case. */
  const BetweenPattern: Pat :=
    [Lit("between"), Spaces, NumGroup, Spaces, Alt("and", "-"), Spaces, NumGroup, Spaces, Lit("cr")]

  /** `(?:under|below)\s*([\d\.]+)\s*cr`, ignoring case. */
  const UnderPattern: Pat :=
    [Alt("under", "below"), Spaces, NumGroup, Spaces, Lit("cr")]

  lemma PatternsWellFormed()
    ensures WellFormed(BetweenPattern) && WellFormed(UnderPattern)
  {
  }

  lemma PatternGroupCounts()
    ensures GroupCount(BetweenPattern) == 2 && GroupCount(UnderPattern) == 1
  {
  }

  /** The two numbers of a `between` match are the texts its two captures
      span, elements 2 and 6 of the pattern, and each is the whole run of
      digits and dots at its place: the character after it is neither. */
  lemma BetweenGroups(s: string, i: nat, cuts: seq<nat>)
    requires MatchesAt(BetweenPattern, s, i, cuts)
    ensures |cuts| == 9
    ensures cuts[1] < cuts[2] < |s| && !IsNumChar(s[cuts[2]])
    ensures cuts[5] < cuts[6] < |s| && !IsNumChar(s[cuts[6]])
    ensures Groups(BetweenPattern, s, i, cuts) == [s[cuts[1]..cuts[2]], s[cuts[5]..cuts[6]]]
  {
    BetweenShape();
    TwoCaptures(BetweenPattern, s, i, cuts);
  }

  /** The layout of the `between` pattern `TwoCaptures` relies on. */
  lemma BetweenShape()
    ensures var p := BetweenPattern;
            && StartsOutside(p[3..], NumClass) && StartsOutside(p[7..], NumClass)
            && GroupCount(p[7..]) == 0
  {
    var p := BetweenPattern;
    assert StartsOutside(p[3..], NumClass);
    assert StartsOutside(p[7..], NumClass);
    assert p[7..][1..][1..] == [];
    assert GroupCount(p[7..][1..]) == 0;
  }

  lemma TwoCaptures(p: Pat, s: string, i: nat, cuts: seq<nat>)
    requires |p| == 9 && !p[0].NumGroup? && !p[1].NumGroup? && p[2].NumGroup?
    requires !p[3].NumGroup?
    requires !p[4].NumGroup? && !p[5].NumGroup? && p[6].NumGroup?
    requires StartsOutside(p[3..], NumClass) && StartsOutside(p[7..], NumClass)
    requires GroupCount(p[7..]) == 0
    requires MatchesAt(p, s, i, cuts)
    ensures cuts[1] < cuts[2] < |s| && !IsNumChar(s[cuts[2]])
    ensures cuts[5] < cuts[6] < |s| && !IsNumChar(s[cuts[6]])
    ensures Groups(p, s, i, cuts) == [s[cuts[1]..cuts[2]], s[cuts[5]..cuts[6]]]
  {
    var c := cuts;
    assert p[3..][1..] == p[4..] && p[4..][3..] == p[7..];
    CaptureAtTwo(p, s, i, c);
    MatchesTail(p[3..], s, c[2], c[3..]);
    assert c[3..][1..] == c[4..];
    CaptureAtTwo(p[4..], s, c[3], c[4..]);
    assert c[4..][3..] == c[7..];
  }

  /** The number of an `under`/`below` match is the text its capture spans,
      element 2 of the pattern, and it is the whole run of digits and dots
      at its place. */
  lemma UnderGroup(s: string, i: nat, cuts: seq<nat>)
    requires MatchesAt(UnderPattern, s, i, cuts)
    ensures |cuts| == 5
    ensures cuts[1] < cuts[2] < |s| && !IsNumChar(s[cuts[2]])
    ensures Groups(UnderPattern, s, i, cuts) == [s[cuts[1]..cuts[2]]]
  {
    CaptureAtTwo(UnderPattern, s, i, cuts);
    assert GroupCount(UnderPattern[3..]) == 0;
  }

  /** The budget a message expresses, before it becomes a filter map. */
  datatype Budget = Unbounded | Ceiling(max: real) | Range(min: real, max: real)

  /** Every bound in Crores is non-negative. */
  predicate NonNegative(b: Budget) {
    match b
    case Unbounded => true
    case Ceiling(hi) => hi >= 0.0
    case Range(lo, hi) => lo >= 0.0 && hi >= 0.0
  }

  /** The partial filter map `fallback_regex_parser` returns for a budget:
      only the two budget keys ever appear, the minimum only with a range. */
  function AsFilters(b: Budget): (m: FilterMap)
    ensures m.Keys <= {MinKey, MaxKey}
    ensures MinKey in m <==> b.Range?
    ensures MaxKey in m <==> !b.Unbounded?
    ensures b.Range? ==> m[MinKey] == Num(b.min)
    ensures !b.Unbounded? ==> m[MaxKey] == Num(b.max)
  {
    KeysDistinct();
    match b
    case Unbounded => map[]
    case Ceiling(hi) => map[MaxKey := Num(hi)]
    case Range(lo, hi) => map[MinKey := Num(lo), MaxKey := Num(hi)]
  }

  /** `float(text)` on a captured group. */
  function Convert(text: string): (r: Result<real>)
    ensures r.Success? ==> r.value >= 0.0
    ensures r.Failure? ==> r == Failure(ValueError(text))
  {
    match ToFloat(text)
    case Some(v) => Success(v)
    case None => Failure(ValueError(text))
  }

  /** The budget read from one message: the first `between` phrase if there
      is one, else what `CeilingBudget` reads.  The lower bound is converted
      first, so an unconvertible lower bound is the one reported. */
  function ReadBudget(query: string): (r: Result<Budget>)
    ensures r.Success? ==> NonNegative(r.value)
    ensures r.Failure? ==> r.error.ValueError?
  {
    PatternGroupCounts();
    var between := Search(BetweenPattern, query);
    if between.Some? then
      var g := Groups(BetweenPattern, query, between.value.0, between.value.1);
      var lo :- Convert(g[0]);
      var hi :- Convert(g[1]);
      Success(Range(lo, hi))
    else CeilingBudget(query)
  }

  /** The budget when there is no `between` phrase: the first
      `under`/`below` phrase, else none. */
  function CeilingBudget(query: string): (r: Result<Budget>)
    ensures r.Success? ==> NonNegative(r.value) && !r.value.Range?
    ensures r.Failure? ==> r.error.ValueError?
  {
    PatternGroupCounts();
    var under := Search(UnderPattern, query);
    if under.Some? then
      var hi :- Convert(Groups(UnderPattern, query, under.value.0, under.value.1)[0]);
      Success(Ceiling(hi))
    else Success(Unbounded)
  }

  function BudgetFilters(query: string): (r: Result<FilterMap>)
    ensures r.Success? ==> r.value.Keys <= {MinKey, MaxKey}
    ensures r.Success? && MinKey in r.value ==> MaxKey in r.value
    ensures r.Failure? ==> r.error.ValueError?
  {
    var b :- ReadBudget(query);
    Success(AsFilters(b))
  }

  /** `chat_history[-1]['content']`. */
  function LatestContent(h: seq<Entry>): (r: Result<string>)
    ensures |h| == 0 ==> r == Failure(IndexError)
    ensures |h| > 0 && h[|h| - 1].NotADict? ==> r == Failure(TypeError)
    ensures |h| > 0 && h[|h| - 1].Message? ==>
              if h[|h| - 1].content.Some? then r == Success(h[|h| - 1].content.value)
              else r == Failure(KeyError("content"))
  {
    if |h| == 0 then Failure(IndexError)
    else
      match h[|h| - 1]
      case NotADict => Failure(TypeError)
      case Message(_, content, _) =>
        if content.None? then Failure(KeyError("content")) else Success(content.value)
  }

  function FallbackRegexParser(h: seq<Entry>): (r: Result<FilterMap>)
    ensures |h| == 0 ==> r == Failure(IndexError)
    ensures |h| > 0 && h[|h| - 1].NotADict? ==> r == Failure(TypeError)
    ensures |h| > 0 && h[|h| - 1].Message? && h[|h| - 1].content.None? ==> r == Failure(KeyError("content"))
    ensures r.Success? ==> r.value.Keys <= {MinKey, MaxKey}
  {
    var query :- LatestContent(h);
    BudgetFilters(query)
  }

  /** Only the latest message's `content` matters: transcripts whose last
      entries are dicts with the same `content` (or both without one) get the
      same fallback result, whatever their roles, filters or earlier entries. */
  lemma FallbackReadsOnlyLatest(h1: seq<Entry>, h2: seq<Entry>)
    requires |h1| > 0 && |h2| > 0
    requires h1[|h1| - 1].Message? && h2[|h2| - 1].Message?
    requires h1[|h1| - 1].content == h2[|h2| - 1].content
    ensures FallbackRegexParser(h1) == FallbackRegexParser(h2)
  {
  }

  /** The latest message `q` holds a `between` phrase, leftmost at `i`: the
      parser returns both budget keys, holding the numbers the phrase spans,
      or raises `ValueError` for the first of them that does not convert. */
  lemma FallbackBetween(h: seq<Entry>, q: string, i: nat, cuts: seq<nat>)
    requires |h| > 0 && h[|h| - 1].Message? && h[|h| - 1].content == Some(q)
    requires i <= |q| && MatchesAt(BetweenPattern, q, i, cuts)
    requires forall i': nat, c': seq<nat> :: i' < i ==> !MatchesAt(BetweenPattern, q, i', c')
    ensures |cuts| == 9 && cuts[1] <= cuts[2] <= |q| && cuts[5] <= cuts[6] <= |q|
    ensures var lo, hi := q[cuts[1]..cuts[2]], q[cuts[5]..cuts[6]];
            && (ToFloat(lo).Some? && ToFloat(hi).Some? ==>
                  FallbackRegexParser(h) ==
                    Success(map[MinKey := Num(ToFloat(lo).value), MaxKey := Num(ToFloat(hi).value)]))
            && (ToFloat(lo).None? ==> FallbackRegexParser(h) == Failure(ValueError(lo)))
            && (ToFloat(lo).Some? && ToFloat(hi).None? ==> FallbackRegexParser(h) == Failure(ValueError(hi)))
  {
    BetweenBudget(q, i, cuts);
    ParserReadsBudget(h, q);
    var lo, hi := q[cuts[1]..cuts[2]], q[cuts[5]..cuts[6]];
    if ToFloat(lo).Some? && ToFloat(hi).Some? {
      RangeAsFilters(ToFloat(lo).value, ToFloat(hi).value);
    }
  }

  lemma RangeAsFilters(lo: real, hi: real)
    ensures AsFilters(Range(lo, hi)) == map[MinKey := Num(lo), MaxKey := Num(hi)]
  {
  }

  /** `BetweenTakesPrecedence` with the two numbers named by their place in
      the message. */
  lemma BetweenBudget(q: string, i: nat, cuts: seq<nat>)
    requires i <= |q| && MatchesAt(BetweenPattern, q, i, cuts)
    requires forall i': nat, c': seq<nat> :: i' < i ==> !MatchesAt(BetweenPattern, q, i', c')
    ensures |cuts| == 9 && cuts[1] <= cuts[2] <= |q| && cuts[5] <= cuts[6] <= |q|
    ensures var lo, hi := q[cuts[1]..cuts[2]], q[cuts[5]..cuts[6]];
            && (ToFloat(lo).Some? && ToFloat(hi).Some? ==>
                  ReadBudget(q) == Success(Range(ToFloat(lo).value, ToFloat(hi).value)))
            && (ToFloat(lo).None? ==> ReadBudget(q) == Failure(ValueError(lo)))
            && (ToFloat(lo).Some? && ToFloat(hi).None? ==> ReadBudget(q) == Failure(ValueError(hi)))
  {
    BetweenGroups(q, i, cuts);
    BetweenTakesPrecedence(q, i, cuts);
  }

  /** The parser turns the budget of the latest message into its map, and
      passes a `ValueError` on. */
  lemma ParserReadsBudget(h: seq<Entry>, q: string)
    requires |h| > 0 && h[|h| - 1].Message? && h[|h| - 1].content == Some(q)
    ensures ReadBudget(q).Success? ==> FallbackRegexParser(h) == Success(AsFilters(ReadBudget(q).value))
    ensures ReadBudget(q).Failure? ==> FallbackRegexParser(h) == Failure(ReadBudget(q).error)
  {
    assert LatestContent(h) == Success(q);
  }

  /** The latest message `q` holds no `between` phrase and an `under`/`below`
      phrase, leftmost at `i`: the parser returns the maximum alone, holding
      the number the phrase spans, or raises `ValueError` for it. */
  lemma FallbackUnderOnly(h: seq<Entry>, q: string, i: nat, cuts: seq<nat>)
    requires |h| > 0 && h[|h| - 1].Message? && h[|h| - 1].content == Some(q)
    requires forall i': nat, c': seq<nat> :: i' <= |q| ==> !MatchesAt(BetweenPattern, q, i', c')
    requires i <= |q| && MatchesAt(UnderPattern, q, i, cuts)
    requires forall i': nat, c': seq<nat> :: i' < i ==> !MatchesAt(UnderPattern, q, i', c')
    ensures |cuts| == 5 && cuts[1] <= cuts[2] <= |q|
    ensures var hi := q[cuts[1]..cuts[2]];
            && (ToFloat(hi).Some? ==> FallbackRegexParser(h) == Success(map[MaxKey := Num(ToFloat(hi).value)]))
            && (ToFloat(hi).None? ==> FallbackRegexParser(h) == Failure(ValueError(hi)))
  {
    UnderGroup(q, i, cuts);
    UnderSetsOnlyMax(q, i, cuts);
    assert LatestContent(h) == Success(q);
  }

  /** The parser returns the empty map exactly when the latest message holds
      neither phrase. */
  lemma FallbackNoPhrase(h: seq<Entry>, q: string)
    requires |h| > 0 && h[|h| - 1].Message? && h[|h| - 1].content == Some(q)
    ensures FallbackRegexParser(h) == Success(map[]) <==>
              && (forall i: nat, c: seq<nat> :: i <= |q| ==> !MatchesAt(BetweenPattern, q, i, c))
              && (forall i: nat, c: seq<nat> :: i <= |q| ==> !MatchesAt(UnderPattern, q, i, c))
  {
    BudgetFollowsPhrases(q);
    ParserReadsBudget(h, q);
    var r := ReadBudget(q);
    if r.Success? && !r.value.Unbounded? {
      assert MaxKey in AsFilters(r.value);
    }
  }

  /** A `between` phrase decides the result, whether or not an
      `under`/`below` phrase is also present: both bounds come from the
      leftmost `between` match, or its first unconvertible number raises. */
  lemma BetweenTakesPrecedence(query: string, i: nat, cuts: seq<nat>)
    requires i <= |query| && MatchesAt(BetweenPattern, query, i, cuts)
    requires forall i': nat, c': seq<nat> :: i' < i ==> !MatchesAt(BetweenPattern, query, i', c')
    ensures GroupCount(BetweenPattern) == 2
    ensures var g := Groups(BetweenPattern, query, i, cuts);
            && (ToFloat(g[0]).Some? && ToFloat(g[1]).Some? ==>
                  ReadBudget(query) == Success(Range(ToFloat(g[0]).value, ToFloat(g[1]).value)))
            && (ToFloat(g[0]).None? ==> ReadBudget(query) == Failure(ValueError(g[0])))
            && (ToFloat(g[0]).Some? && ToFloat(g[1]).None? ==> ReadBudget(query) == Failure(ValueError(g[1])))
  {
    PatternsWellFormed();
    SearchFromLeftmost(BetweenPattern, query, 0, i, cuts);
    ReadBudgetFromRange(query);
  }

  /** `ReadBudget` once the `between` search has found its match. */
  lemma ReadBudgetFromRange(query: string)
    requires Search(BetweenPattern, query).Some?
    ensures GroupCount(BetweenPattern) == 2
    ensures var (i, cuts) := Search(BetweenPattern, query).value;
            var g := Groups(BetweenPattern, query, i, cuts);
            && (ToFloat(g[0]).Some? && ToFloat(g[1]).Some? ==>
                  ReadBudget(query) == Success(Range(ToFloat(g[0]).value, ToFloat(g[1]).value)))
            && (ToFloat(g[0]).None? ==> ReadBudget(query) == Failure(ValueError(g[0])))
            && (ToFloat(g[0]).Some? && ToFloat(g[1]).None? ==> ReadBudget(query) == Failure(ValueError(g[1])))
  {
    PatternGroupCounts();
    var (i, cuts) := Search(BetweenPattern, query).value;
    var g := Groups(BetweenPattern, query, i, cuts);
    RangeFromGroups(ReadBudget(query), Convert(g[0]), Convert(g[1]), g[0], g[1]);
  }

  /** How the two conversions of a `between` match decide its budget. */
  lemma RangeFromGroups(r: Result<Budget>, lo: Result<real>, hi: Result<real>, a: string, b: string)
    requires lo == Convert(a) && hi == Convert(b)
    requires r == (var x :- lo; var y :- hi; Success(Range(x, y)))
    ensures ToFloat(a).Some? && ToFloat(b).Some? ==> r == Success(Range(ToFloat(a).value, ToFloat(b).value))
    ensures ToFloat(a).None? ==> r == Failure(ValueError(a))
    ensures ToFloat(a).Some? && ToFloat(b).None? ==> r == Failure(ValueError(b))
  {
  }

  /** `CeilingBudget` once the `under`/`below` search has found its match. */
  lemma CeilingBudgetFromMatch(query: string)
    requires Search(UnderPattern, query).Some?
    ensures GroupCount(UnderPattern) == 1
    ensures var (i, cuts) := Search(UnderPattern, query).value;
            var g := Groups(UnderPattern, query, i, cuts);
            && (ToFloat(g[0]).Some? ==> CeilingBudget(query) == Success(Ceiling(ToFloat(g[0]).value)))
            && (ToFloat(g[0]).None? ==> CeilingBudget(query) == Failure(ValueError(g[0])))
  {
    PatternGroupCounts();
  }

  /** Without a `between` phrase, the leftmost `under`/`below` phrase sets
      the upper bound only. */
  lemma UnderSetsOnlyMax(query: string, i: nat, cuts: seq<nat>)
    requires forall i': nat, c': seq<nat> :: i' <= |query| ==> !MatchesAt(BetweenPattern, query, i', c')
    requires i <= |query| && MatchesAt(UnderPattern, query, i, cuts)
    requires forall i': nat, c': seq<nat> :: i' < i ==> !MatchesAt(UnderPattern, query, i', c')
    ensures GroupCount(UnderPattern) == 1
    ensures var g := Groups(UnderPattern, query, i, cuts);
            && (ToFloat(g[0]).Some? ==> ReadBudget(query) == Success(Ceiling(ToFloat(g[0]).value)))
            && (ToFloat(g[0]).None? ==> ReadBudget(query) == Failure(ValueError(g[0])))
  {
    PatternsWellFormed();
    SearchIsLeftmost(BetweenPattern, query);
    NoRangeReadsCeiling(query);
    SearchFromLeftmost(UnderPattern, query, 0, i, cuts);
    CeilingBudgetFromMatch(query);
  }

  /** No budget is read exactly when the message holds neither phrase; a
      range is read only from a `between` phrase. */
  lemma BudgetFollowsPhrases(query: string)
    ensures ReadBudget(query) == Success(Unbounded) <==>
              && (forall i: nat, c: seq<nat> :: i <= |query| ==> !MatchesAt(BetweenPattern, query, i, c))
              && (forall i: nat, c: seq<nat> :: i <= |query| ==> !MatchesAt(UnderPattern, query, i, c))
    ensures (ReadBudget(query).Success? && ReadBudget(query).value.Range?) ==>
              exists i: nat, c: seq<nat> :: i <= |query| && MatchesAt(BetweenPattern, query, i, c)
  {
    PatternsWellFormed();
    ReadBudgetBySearch(query);
    SearchIsLeftmost(BetweenPattern, query);
    SearchIsLeftmost(UnderPattern, query);
  }

  lemma ReadBudgetBySearch(query: string)
    ensures ReadBudget(query) == Success(Unbounded) <==>
              Search(BetweenPattern, query).None? && Search(UnderPattern, query).None?
    ensures ReadBudget(query).Success? && ReadBudget(query).value.Range? ==>
              Search(BetweenPattern, query).Some?
  {
    if Search(BetweenPattern, query).Some? {
      ReadBudgetFoundRange(query);
    } else {
      NoRangeReadsCeiling(query);
      CeilingBudgetBySearch(query);
    }
  }

  lemma ReadBudgetFoundRange(query: string)
    requires Search(BetweenPattern, query).Some?
    ensures ReadBudget(query).Failure? || ReadBudget(query).value.Range?
  {
    ReadBudgetFromRange(query);
  }

  lemma CeilingBudgetBySearch(query: string)
    ensures CeilingBudget(query) == Success(Unbounded) <==> Search(UnderPattern, query).None?
  {
  }

  /** Matching ignores case: upper-casing or lower-casing the message does
      not change the result. */
  lemma BudgetIgnoresCase(query: string)
    ensures ReadBudget(LowerStr(query)) == ReadBudget(query)
    ensures ReadBudget(UpperStr(query)) == ReadBudget(query)
  {
    CaseChangesKeepFold(query);
    FoldedQuerySameBudget(LowerStr(query), query);
    FoldedQuerySameBudget(UpperStr(query), query);
  }

  lemma FoldedQuerySameBudget(s: string, t: string)
    requires SameFoldStr(s, t)
    ensures ReadBudget(s) == ReadBudget(t)
  {
    SearchIgnoresCase(BetweenPattern, s, t);
    if Search(BetweenPattern, s).Some? {
      ReadBudgetFromRange(s);
      ReadBudgetFromRange(t);
    } else {
      NoRangeReadsCeiling(s);
      NoRangeReadsCeiling(t);
      FoldedQuerySameCeiling(s, t);
    }
  }

  lemma NoRangeReadsCeiling(query: string)
    requires Search(BetweenPattern, query).None?
    ensures ReadBudget(query) == CeilingBudget(query)
  {
  }

  lemma FoldedQuerySameCeiling(s: string, t: string)
    requires SameFoldStr(s, t)
    ensures CeilingBudget(s) == CeilingBudget(t)
  {
    SearchIgnoresCase(UnderPattern, s, t);
  }
}

=== FILE: pattern.dfy ===
/** The fragment of Python's `re` that the budget patterns use, searched
    with `re.IGNORECASE`.

    A pattern is a sequence of elements: a literal word, a two-way
    non-capturing alternation of words, `\s*`, or a capturing `([\d\.]+)`.
    `MatchesAt` is the declarative meaning (a match is a choice of cut
    points, one per element); `Run` is a deterministic greedy matcher at
    one position that never backtracks, and `Search` tries the positions
    from the left.  `Run` is sound for every pattern.  For well-formed
    patterns it is also complete, `Search` finds the leftmost match, and
    every match at a position has the same cut points, so the groups
    `re.search` reports are determined by the start position alone. */
module Pattern {
  import opened Results
  import opened Text

  datatype Elem =
    | Lit(word: string)                   // a literal, matched ignoring case
    | Alt(first: string, second: string)  // `(?:first|second)`
    | Spaces                              // `\s*`
    | NumGroup                            // `([\d\.]+)`, a capturing group

  type Pat = seq<Elem>

  /** The two greedy character runs of the fragment. */
  datatype Class = SpaceClass | NumClass

  predicate InClass(cls: Class, c: char) {
    match cls
    case SpaceClass => IsSpace(c)
    case NumClass => IsNumChar(c)
  }

  /** Neither run class holds an upper-case ASCII letter, so folding fixes
      its members. */
  lemma ClassFoldFixed(cls: Class, c: char)
    requires InClass(cls, c)
    ensures LowerAscii(c) == c
  {
  }

  lemma ClassFoldInvariant(cls: Class, a: char, b: char)
    requires SameFold(a, b)
    ensures InClass(cls, a) <==> InClass(cls, b)
    ensures InClass(cls, a) ==> a == b
  {
    if InClass(cls, a) {
      FoldFixesNonLetters(a, b);
    } else if InClass(cls, b) {
      FoldFixesNonLetters(b, a);
    }
  }

  /** `word` occurs at `i`, each character equal to the pattern's up to case. */
  predicate WordAt(s: string, i: nat, word: string) {
    i + |word| <= |s| && forall k :: 0 <= k < |word| ==> SameFold(s[i + k], word[k])
  }

  /** Element `e` matches exactly `s[i..j]`. */
  ghost predicate ElemMatches(e: Elem, s: string, i: nat, j: nat) {
    i <= j <= |s| &&
    match e
    case Lit(w) => j == i + |w| && WordAt(s, i, w)
    case Alt(a, b) => (j == i + |a| && WordAt(s, i, a)) || (j == i + |b| && WordAt(s, i, b))
    case Spaces => forall k :: i <= k < j ==> IsSpace(s[k])
    case NumGroup => i < j && forall k :: i <= k < j ==> IsNumChar(s[k])
  }

  /** The pattern matches `s` from `i`, element `n` ending at `cuts[n]`. */
  ghost predicate MatchesAt(p: Pat, s: string, i: nat, cuts: seq<nat>)
    decreases |p|
  {
    |cuts| == |p| &&
    (|p| == 0 || (ElemMatches(p[0], s, i, cuts[0]) && MatchesAt(p[1..], s, cuts[0], cuts[1..])))
  }

  /** The end of the longest run of `cls` characters starting at `i`. */
  function SpanEnd(s: string, i: nat, cls: Class): (j: nat)
    requires i <= |s|
    ensures i <= j <= |s|
    ensures forall k :: i <= k < j ==> InClass(cls, s[k])
    ensures j < |s| ==> !InClass(cls, s[j])
    decreases |s| - i
  {
    if i < |s| && InClass(cls, s[i]) then SpanEnd(s, i + 1, cls) else i
  }

  lemma {:induction false} SpanEndMaximal(s: string, i: nat, k: nat, cls: Class)
    requires i <= k <= |s|
    requires forall m :: i <= m < k ==> InClass(cls, s[m])
    ensures k <= SpanEnd(s, i, cls)
    decreases k - i
  {
    if i < k {
      SpanEndMaximal(s, i + 1, k, cls);
    }
  }

  /** One element, greedily: runs take all they can, the alternation takes
      its first word when that word is present. */
  function Step(e: Elem, s: string, i: nat): (r: Option<nat>)
    requires i <= |s|
    ensures r.Some? ==> ElemMatches(e, s, i, r.value)
  {
    match e
    case Lit(w) => if WordAt(s, i, w) then Some(i + |w|) else None
    case Alt(a, b) =>
      if WordAt(s, i, a) then Some(i + |a|)
      else if WordAt(s, i, b) then Some(i + |b|)
      else None
    case Spaces => Some(SpanEnd(s, i, SpaceClass))
    case NumGroup =>
      var j := SpanEnd(s, i, NumClass);
      if i < j then Some(j) else None
  }

  /** The matcher: every element in turn, no backtracking. */
  function Run(p: Pat, s: string, i: nat): (r: Option<seq<nat>>)
    requires i <= |s|
    ensures r.Some? ==> MatchesAt(p, s, i, r.value)
    decreases |p|
  {
    if |p| == 0 then Some([])
    else
      match Step(p[0], s, i)
      case None => None
      case Some(j) =>
        match Run(p[1..], s, j)
        case None => None
        case Some(rest) => Some([j] + rest)
  }

  /** `re.search`: the match at the smallest start position, if any. */
  function SearchFrom(p: Pat, s: string, i: nat): (r: Option<(nat, seq<nat>)>)
    requires i <= |s|
    ensures r.Some? ==> i <= r.value.0 <= |s| && MatchesAt(p, s, r.value.0, r.value.1)
    decreases |s| - i
  {
    match Run(p, s, i)
    case Some(cuts) => Some((i, cuts))
    case None => if i == |s| then None else SearchFrom(p, s, i + 1)
  }

  function Search(p: Pat, s: string): (r: Option<(nat, seq<nat>)>)
    ensures r.Some? ==> r.value.0 <= |s| && MatchesAt(p, s, r.value.0, r.value.1)
  {
    SearchFrom(p, s, 0)
  }

  /** Every match of `p` is non-empty and begins with a character outside `cls`. */
  predicate StartsOutside(p: Pat, cls: Class)
    decreases |p|
  {
    |p| > 0 &&
    match p[0]
    case Lit(w) => |w| > 0 && !InClass(cls, LowerAscii(w[0]))
    case Alt(a, b) =>
      |a| > 0 && |b| > 0 && !InClass(cls, LowerAscii(a[0])) && !InClass(cls, LowerAscii(b[0]))
    case Spaces => cls == NumClass && StartsOutside(p[1..], cls)
    case NumGroup => cls == SpaceClass
  }

  /** The patterns for which greedy matching without backtracking is exact:
      whatever follows a run cannot begin with a character of that run, and
      the two words of an alternation differ in their first letter. */
  predicate WellFormed(p: Pat)
    decreases |p|
  {
    |p| == 0 ||
    ((match p[0]
      case Lit(_) => true
      case Alt(a, b) => |a| > 0 && |b| > 0 && LowerAscii(a[0]) != LowerAscii(b[0])
      case Spaces => StartsOutside(p[1..], SpaceClass)
      case NumGroup => StartsOutside(p[1..], NumClass))
     && WellFormed(p[1..]))
  }

  lemma {:induction false} FirstCharOutside(p: Pat, s: string, i: nat, cuts: seq<nat>, cls: Class)
    requires StartsOutside(p, cls)
    requires MatchesAt(p, s, i, cuts)
    ensures i < |s| && !InClass(cls, s[i])
    decreases |p|
  {
    match p[0]
    case Lit(w) =>
      assert SameFold(s[i + 0], w[0]);
      if InClass(cls, s[i]) {
        ClassFoldFixed(cls, s[i]);
      }
    case Alt(a, b) =>
      if WordAt(s, i, a) {
        assert SameFold(s[i + 0], a[0]);
      } else {
        assert SameFold(s[i + 0], b[0]);
      }
      if InClass(cls, s[i]) {
        ClassFoldFixed(cls, s[i]);
      }
    case Spaces =>
      if cuts[0] == i {
        FirstCharOutside(p[1..], s, cuts[0], cuts[1..], cls);
      }
    case NumGroup =>
  }

  /** Words that differ in their first letter cannot both occur at one place. */
  lemma AltWordsExclusive(s: string, i: nat, a: string, b: string)
    requires |a| > 0 && |b| > 0 && LowerAscii(a[0]) != LowerAscii(b[0])
    ensures !(WordAt(s, i, a) && WordAt(s, i, b))
  {
    if WordAt(s, i, a) {
      assert SameFold(s[i + 0], a[0]);
    }
  }

  /** In a well-formed pattern the greedy step ends exactly where any match
      ends its first element. */
  lemma StepForced(p: Pat, s: string, i: nat, cuts: seq<nat>)
    requires i <= |s|
    requires WellFormed(p) && |p| > 0
    requires MatchesAt(p, s, i, cuts)
    ensures Step(p[0], s, i) == Some(cuts[0])
  {
    match p[0]
    case Lit(w) =>
    case Alt(a, b) =>
      AltWordsExclusive(s, i, a, b);
    case Spaces =>
      SpanEndMaximal(s, i, cuts[0], SpaceClass);
      if SpanEnd(s, i, SpaceClass) > cuts[0] {
        FirstCharOutside(p[1..], s, cuts[0], cuts[1..], SpaceClass);
      }
    case NumGroup =>
      SpanEndMaximal(s, i, cuts[0], NumClass);
      if SpanEnd(s, i, NumClass) > cuts[0] {
        FirstCharOutside(p[1..], s, cuts[0], cuts[1..], NumClass);
      }
  }

  /** Completeness and uniqueness: the matcher finds every match of a
      well-formed pattern, and so any two matches at one start coincide. */
  lemma {:induction false} RunComplete(p: Pat, s: string, i: nat, cuts: seq<nat>)
    requires i <= |s|
    requires WellFormed(p)
    requires MatchesAt(p, s, i, cuts)
    ensures Run(p, s, i) == Some(cuts)
    decreases |p|
  {
    if |p| > 0 {
      StepForced(p, s, i, cuts);
      RunComplete(p[1..], s, cuts[0], cuts[1..]);
      assert [cuts[0]] + cuts[1..] == cuts;
    }
  }

  lemma {:induction false} SearchFromLeftmost(p: Pat, s: string, j: nat, i: nat, cuts: seq<nat>)
    requires WellFormed(p)
    requires j <= i <= |s|
    requires MatchesAt(p, s, i, cuts)
    requires forall i': nat, c': seq<nat> :: j <= i' < i ==> !MatchesAt(p, s, i', c')
    ensures SearchFrom(p, s, j) == Some((i, cuts))
    decreases i - j
  {
    if j == i {
      RunComplete(p, s, i, cuts);
    } else {
      assert Run(p, s, j).None?;
      SearchFromLeftmost(p, s, j + 1, i, cuts);
    }
  }

  lemma {:induction false} SearchFromNone(p: Pat, s: string, j: nat)
    requires j <= |s|
    requires forall i': nat, c': seq<nat> :: j <= i' <= |s| ==> !MatchesAt(p, s, i', c')
    ensures SearchFrom(p, s, j) == None
    decreases |s| - j
  {
    assert Run(p, s, j).None?;
    if j < |s| {
      SearchFromNone(p, s, j + 1);
    }
  }

  /** `Search` is `re.search`: it reports a match exactly when one exists,
      and then the leftmost one, whose cut points are the only ones at that
      start. */
  lemma SearchIsLeftmost(p: Pat, s: string)
    requires WellFormed(p)
    ensures Search(p, s).Some? <==> exists i: nat, c: seq<nat> :: i <= |s| && MatchesAt(p, s, i, c)
    ensures Search(p, s).Some? ==>
              var (i, cuts) := Search(p, s).value;
              && (forall i': nat, c': seq<nat> :: i' < i ==> !MatchesAt(p, s, i', c'))
              && (forall c': seq<nat> :: MatchesAt(p, s, i, c') ==> c' == cuts)
  {
    var r := Search(p, s);
    if r.Some? {
      var (i, cuts) := r.value;
      assert MatchesAt(p, s, i, cuts);
      assert exists i: nat, c: seq<nat> :: i <= |s| && MatchesAt(p, s, i, c);
      forall i': nat, c': seq<nat> | i' < i && MatchesAt(p, s, i', c')
        ensures false
      {
        SearchFromEarlier(p, s, 0, i', c');
      }
      forall c': seq<nat> | MatchesAt(p, s, i, c')
        ensures c' == cuts
      {
        RunComplete(p, s, i, c');
        RunComplete(p, s, i, cuts);
      }
    } else {
      forall i: nat, c: seq<nat> | i <= |s| && MatchesAt(p, s, i, c)
        ensures false
      {
        SearchFromEarlier(p, s, 0, i, c);
      }
    }
  }

  /** A match at `i` makes the search from any earlier `j` stop at or before `i`. */
  lemma {:induction false} SearchFromEarlier(p: Pat, s: string, j: nat, i: nat, c: seq<nat>)
    requires WellFormed(p)
    requires j <= i <= |s|
    requires MatchesAt(p, s, i, c)
    ensures SearchFrom(p, s, j).Some? && SearchFrom(p, s, j).value.0 <= i
    decreases i - j
  {
    if j == i {
      RunComplete(p, s, i, c);
    } else if Run(p, s, j).None? {
      SearchFromEarlier(p, s, j + 1, i, c);
    }
  }

  /** Number of capturing groups. */
  function GroupCount(p: Pat): nat
    decreases |p|
  {
    if |p| == 0 then 0 else (if p[0].NumGroup? then 1 else 0) + GroupCount(p[1..])
  }

  /** The captured texts, in order: each a non-empty run of `[\d\.]`. */
  function Groups(p: Pat, s: string, i: nat, cuts: seq<nat>): (g: seq<string>)
    requires MatchesAt(p, s, i, cuts)
    ensures |g| == GroupCount(p)
    ensures forall n :: 0 <= n < |g| ==> |g[n]| > 0
    ensures forall n, k :: 0 <= n < |g| && 0 <= k < |g[n]| ==> IsNumChar(g[n][k])
    decreases |p|
  {
    if |p| == 0 then []
    else (if p[0].NumGroup? then [s[i..cuts[0]]] else []) + Groups(p[1..], s, cuts[0], cuts[1..])
  }

  /** A match of a non-empty pattern is its first element's match followed
      by a match of the rest, and its groups are the first element's
      capture (if any) followed by the rest's. */
  lemma MatchesTail(p: Pat, s: string, i: nat, cuts: seq<nat>)
    requires |p| > 0 && MatchesAt(p, s, i, cuts)
    ensures ElemMatches(p[0], s, i, cuts[0])
    ensures MatchesAt(p[1..], s, cuts[0], cuts[1..])
    ensures Groups(p, s, i, cuts) ==
              (if p[0].NumGroup? then [s[i..cuts[0]]] else []) + Groups(p[1..], s, cuts[0], cuts[1..])
  {
  }

  /** A capture followed by something that cannot start with a digit or a
      dot holds exactly the text it spans, and that text is the whole run
      of `[\d\.]` at its position: the character after it is neither. */
  lemma NumGroupStopsRight(p: Pat, s: string, i: nat, cuts: seq<nat>)
    requires |p| > 0 && p[0].NumGroup? && StartsOutside(p[1..], NumClass)
    requires MatchesAt(p, s, i, cuts)
    ensures i < cuts[0] < |s| && !IsNumChar(s[cuts[0]])
    ensures forall k :: i <= k < cuts[0] ==> IsNumChar(s[k])
    ensures Groups(p, s, i, cuts)[0] == s[i..cuts[0]]
  {
    FirstCharOutside(p[1..], s, cuts[0], cuts[1..], NumClass);
  }

  /** A pattern whose third element is its first capture, as in `word\s*([\d\.]+)…`:
      the groups are that capture's text followed by the groups of the rest. */
  lemma CaptureAtTwo(p: Pat, s: string, i: nat, cuts: seq<nat>)
    requires |p| >= 3 && !p[0].NumGroup? && !p[1].NumGroup? && p[2].NumGroup?
    requires StartsOutside(p[3..], NumClass)
    requires MatchesAt(p, s, i, cuts)
    ensures cuts[1] < cuts[2] < |s| && !IsNumChar(s[cuts[2]])
    ensures MatchesAt(p[3..], s, cuts[2], cuts[3..])
    ensures Groups(p, s, i, cuts) == [s[cuts[1]..cuts[2]]] + Groups(p[3..], s, cuts[2], cuts[3..])
  {
    MatchesTail(p, s, i, cuts);
    var p1, c1 := p[1..], cuts[1..];
    MatchesTail(p1, s, cuts[0], c1);
    var p2, c2 := p1[1..], c1[1..];
    assert p2[1..] == p[3..] && c2[1..] == cuts[3..];
    NumGroupStopsRight(p2, s, c1[0], c2);
    MatchesTail(p2, s, c1[0], c2);
  }

  // --- Ignoring case -------------------------------------------------------

  lemma {:induction false} SpanEndFold(s: string, t: string, i: nat, cls: Class)
    requires SameFoldStr(s, t) && i <= |s|
    ensures SpanEnd(s, i, cls) == SpanEnd(t, i, cls)
    decreases |s| - i
  {
    if i < |s| {
      ClassFoldInvariant(cls, s[i], t[i]);
      SpanEndFold(s, t, i + 1, cls);
    }
  }

  lemma WordAtFold(s: string, t: string, i: nat, w: string)
    requires SameFoldStr(s, t)
    ensures WordAt(s, i, w) <==> WordAt(t, i, w)
  {
    if i + |w| <= |s| {
      forall k | 0 <= k < |w|
        ensures SameFold(s[i + k], w[k]) == SameFold(t[i + k], w[k])
      {
        assert SameFold(s[i + k], t[i + k]);
      }
    }
  }

  lemma {:induction false} RunFold(p: Pat, s: string, t: string, i: nat)
    requires SameFoldStr(s, t) && i <= |s|
    ensures Run(p, s, i) == Run(p, t, i)
    decreases |p|
  {
    if |p| > 0 {
      match p[0] {
        case Lit(w) => WordAtFold(s, t, i, w);
        case Alt(a, b) => WordAtFold(s, t, i, a); WordAtFold(s, t, i, b);
        case Spaces => SpanEndFold(s, t, i, SpaceClass);
        case NumGroup => SpanEndFold(s, t, i, NumClass);
      }
      assert Step(p[0], s, i) == Step(p[0], t, i);
      if Step(p[0], s, i).Some? {
        RunFold(p[1..], s, t, Step(p[0], s, i).value);
      }
    }
  }

  /** The search depends on the string only through the matcher's results
      at each start position. */
  lemma {:induction false} SearchFromSameRuns(p: Pat, s: string, t: string, i: nat)
    requires i <= |s| == |t|
    requires forall j :: i <= j <= |s| ==> Run(p, s, j) == Run(p, t, j)
    ensures SearchFrom(p, s, i) == SearchFrom(p, t, i)
    decreases |s| - i
  {
    if Run(p, s, i).None? && i < |s| {
      SearchFromSameRuns(p, s, t, i + 1);
    }
  }

  lemma {:induction false} GroupsFold(p: Pat, s: string, t: string, i: nat, cuts: seq<nat>)
    requires SameFoldStr(s, t)
    requires MatchesAt(p, s, i, cuts) && MatchesAt(p, t, i, cuts)
    ensures Groups(p, s, i, cuts) == Groups(p, t, i, cuts)
    decreases |p|
  {
    if |p| > 0 {
      if p[0].NumGroup? {
        forall k | i <= k < cuts[0]
          ensures s[k] == t[k]
        {
          ClassFoldInvariant(NumClass, s[k], t[k]);
        }
        assert s[i..cuts[0]] == t[i..cuts[0]];
      }
      GroupsFold(p[1..], s, t, cuts[0], cuts[1..]);
    }
  }

  /** Case does not matter: fold-equal texts are searched identically and
      yield the same captured groups. */
  lemma SearchIgnoresCase(p: Pat, s: string, t: string)
    requires SameFoldStr(s, t)
    ensures Search(p, s) == Search(p, t)
    ensures Search(p, s).Some? ==>
              var (i, cuts) := Search(p, s).value;
              Groups(p, s, i, cuts) == Groups(p, t, i, cuts)
  {
    forall j | 0 <= j <= |s|
      ensures Run(p, s, j) == Run(p, t, j)
    {
      RunFold(p, s, t, j);
    }
    SearchFromSameRuns(p, s, t, 0);
    if Search(p, s).Some? {
      var (i, cuts) := Search(p, s).value;
      GroupsFold(p, s, t, i, cuts);
    }
  }
}

=== FILE: resolver.dfy ===
/** `parse_query_with_context`: build the context request from the
    transcript, ask the collaborator for a `find_properties` function call,
    and fall back to the deterministic parser when none comes back.  The
    collaborator (the remote language model) is a parameter: a function
    from the request it is sent to one of its three possible outcomes. */
module Resolver {
  import opened Results
  import opened Text
  import opened Transcript
  import opened Fallback

  /** What the collaborator is told: the last filters of an earlier turn
      and the role-tagged history text. */
  datatype Request = Request(lastFilters: FilterMap, history: string)

  /** What comes back: a function call whose arguments are a filter map, a
      reply without a function call, or an exception. */
  datatype Response = FunctionCall(args: FilterMap) | NoCall | Raises

  /** Every entry that is a dict has both `role` and `content`. */
  predicate Complete(h: seq<Entry>) {
    forall k :: 0 <= k < |h| ==> !MissingKey(h[k])
  }

  /** The request, built before the `try`: an incomplete dict raises
      `KeyError` here and is never caught. */
  function ContextRequest(h: seq<Entry>): (r: Result<Request>)
    ensures r.Success? <==> Complete(h)
    ensures r.Failure? ==> r.error == KeyError("role") || r.error == KeyError("content")
    ensures r.Success? ==> r.value.lastFilters == LastFilters(h)
  {
    var text :- FormatHistory(h);
    Success(Request(LastFilters(h), text))
  }

  function ParseQueryWithContext(h: seq<Entry>, model: Request -> Response): (r: Result<FilterMap>)
    ensures !Complete(h) ==> r.Failure? && r.error.KeyError?
    ensures r.Failure? && r.error.KeyError? ==> !Complete(h)
    ensures r.Failure? && r.error == IndexError ==> |h| == 0
    ensures r.Failure? && r.error == TypeError ==> |h| > 0 && h[|h| - 1].NotADict?
  {
    var request :- ContextRequest(h);
    match model(request)
    case FunctionCall(args) => Success(args)
    case NoCall => FallbackRegexParser(h)
    case Raises => FallbackRegexParser(h)
  }

  /** A function call's arguments are returned as they are. */
  lemma FunctionCallReturned(h: seq<Entry>, model: Request -> Response)
    ensures Complete(h) && model(ContextRequest(h).value).FunctionCall? ==>
              ParseQueryWithContext(h, model) == Success(model(ContextRequest(h).value).args)
  {
  }

  /** Without a function call, whether the reply had none or the call
      raised, the result is the deterministic parser's, errors included: a
      parser error raised inside the `try` is caught, and the parser is run
      again on the same transcript, raising the same error outside it. */
  lemma NoCallFallsBack(h: seq<Entry>, model: Request -> Response)
    ensures Complete(h) && !model(ContextRequest(h).value).FunctionCall? ==>
              ParseQueryWithContext(h, model) == FallbackRegexParser(h)
  {
  }

  /** The collaborator is consulted once, on the context request: two
      collaborators that answer it alike give the same result. */
  lemma OnlyRequestMatters(h: seq<Entry>, m1: Request -> Response, m2: Request -> Response)
    requires Complete(h) ==> m1(ContextRequest(h).value) == m2(ContextRequest(h).value)
    ensures ParseQueryWithContext(h, m1) == ParseQueryWithContext(h, m2)
  {
  }

  /** A fallback result carries at most the two budget keys, and the
      minimum only together with the maximum. */
  lemma FallbackOnlyBudget(h: seq<Entry>, model: Request -> Response)
    ensures Complete(h) && !model(ContextRequest(h).value).FunctionCall? &&
            ParseQueryWithContext(h, model).Success? ==>
              && ParseQueryWithContext(h, model).value.Keys <= {MinKey, MaxKey}
              && (MinKey in ParseQueryWithContext(h, model).value ==>
                    MaxKey in ParseQueryWithContext(h, model).value)
  {
    if Complete(h) && !model(ContextRequest(h).value).FunctionCall? &&
       ParseQueryWithContext(h, model).Success? {
      var query := LatestContent(h).value;
      assert FallbackRegexParser(h) == BudgetFilters(query);
    }
  }

  /** The history text of a complete transcript names every dict entry in
      order, one `role: content` line each, and non-dict entries not at all. */
  lemma RequestListsDicts(h: seq<Entry>)
    requires Complete(h) && |Dicts(h)| > 0
    requires forall k :: 0 <= k < |h| && h[k].Message? ==>
               NoNewline(h[k].role.value) && NoNewline(h[k].content.value)
    ensures ContextRequest(h).Success?
    ensures |Split(ContextRequest(h).value.history)| == |Dicts(h)|
    ensures forall k :: 0 <= k < |Dicts(h)| ==>
              Split(ContextRequest(h).value.history)[k] == Line(Dicts(h)[k])
  {
    HistorySkipsNonDicts(h);
    FormatHistorySplits(Dicts(h));
  }
}

=== FILE: results.dfy ===
/** Failure-carrying values shared by every module of the model.

    The Python code signals failure with exceptions; the model returns them
    as values of `Result`, naming only the exception kinds the modelled code
    can raise. */
module Results {

  datatype Option<+T> = None | Some(value: T)

  /** The exceptions the modelled Python code can let escape. */
  datatype Error =
    | IndexError              // indexing an empty list
    | TypeError               // subscripting something that is not a dict
    | KeyError(key: string)   // a dict without the requested key
    | ValueError(literal: string)  // float() given text that is not a number

  datatype Result<+T> = Success(value: T) | Failure(error: Error) {

    predicate IsFailure() {
      Failure?
    }

    function PropagateFailure<U>(): Result<U>
      requires Failure?
    {
      Failure(error)
    }

    function Extract(): T
      requires Success?
    {
      value
    }
  }
}

=== FILE: summary.dfy ===
/** `generate_summary`: a short text about the matching rows.  No rows give a
    fixed apology without consulting the collaborator; otherwise the
    collaborator is shown the query and the first three rows, and a fixed
    text stands in when it raises.  The rows are never inspected: `R` is any row type. */
module Summary {

  const NoMatchesText: string :=
    "Unfortunately, no properties matched your search criteria. Please try adjusting your filters."

  const FallbackText: string := "Here are the properties I found based on your search."

  /** The number of rows `head(3)` keeps. */
  const SampleSize: nat := 3

  /** What the collaborator is shown: the user's query and the sample rows. */
  datatype SummaryRequest<R> = SummaryRequest(query: string, sample: seq<R>)

  /** The collaborator's reply text, or an exception (from the call or from
      reading the reply's text). */
  datatype SummaryResponse = Text(text: string) | SummaryRaises

  /** `results_df.head(3)`: the first rows, at most three of them. */
  function Sample<R>(results: seq<R>): (s: seq<R>)
    ensures |s| == if |results| < SampleSize then |results| else SampleSize
    ensures forall k :: 0 <= k < |s| ==> s[k] == results[k]
  {
    if |results| <= SampleSize then results else results[..SampleSize]
  }

  function GenerateSummary<R>(query: string, results: seq<R>, model: SummaryRequest<R> -> SummaryResponse): (r: string)
    ensures |results| == 0 ==> r == NoMatchesText
    ensures |results| > 0 && model(SummaryRequest(query, Sample(results))).Text? ==>
              r == model(SummaryRequest(query, Sample(results))).text
    ensures |results| > 0 && model(SummaryRequest(query, Sample(results))).SummaryRaises? ==>
              r == FallbackText
  {
    if |results| == 0 then NoMatchesText
    else
      match model(SummaryRequest(query, Sample(results)))
      case Text(t) => t
      case SummaryRaises => FallbackText
  }

  /** An empty result set never reaches the collaborator. */
  lemma EmptyIgnoresModel<R>(query: string, m1: SummaryRequest<R> -> SummaryResponse,
                             m2: SummaryRequest<R> -> SummaryResponse)
    ensures GenerateSummary(query, [], m1) == GenerateSummary(query, [], m2) == NoMatchesText
  {
  }

  /** Only the first three rows are shown: result sets that agree on them
      get the same summary, however many rows follow. */
  lemma SummaryReadsOnlySample<R>(query: string, a: seq<R>, b: seq<R>,
                                  model: SummaryRequest<R> -> SummaryResponse)
    requires |a| >= SampleSize && |b| >= SampleSize
    requires a[..SampleSize] == b[..SampleSize]
    ensures GenerateSummary(query, a, model) == GenerateSummary(query, b, model)
  {
    assert Sample(a) == a[..SampleSize] == Sample(b);
  }

  /** A raising collaborator is replaced by the fixed text whenever there
      are rows. */
  lemma RaisingModelGivesFallback<R>(query: string, results: seq<R>,
                                     model: SummaryRequest<R> -> SummaryResponse)
    requires |results| > 0
    requires model(SummaryRequest(query, Sample(results))) == SummaryRaises
    ensures GenerateSummary(query, results, model) == FallbackText
  {
  }

  /** The apology means there were no rows, unless the collaborator itself
      replied with exactly those words. */
  lemma ApologyMeansNoRows<R>(query: string, results: seq<R>,
                              model: SummaryRequest<R> -> SummaryResponse)
    requires GenerateSummary(query, results, model) == NoMatchesText
    ensures |results| == 0 || model(SummaryRequest(query, Sample(results))) == Text(NoMatchesText)
  {
    assert FallbackText != NoMatchesText by {
      assert |FallbackText| != |NoMatchesText|;
    }
  }
}

=== FILE: text.dfy ===
/** Characters and strings as Python's `re` and `str` see them. */
module Text {

  /** Python's `\s` on a str pattern: exactly the characters for which
      `str.isspace()` holds. */
  predicate IsSpace(c: char) {
    || c == ' '
    || ('\t' <= c <= '\r')
    || ('\U{1c}' <= c <= '\U{1f}')
    || c == '\U{85}' || c == '\U{a0}' || c == '\U{1680}'
    || ('\U{2000}' <= c <= '\U{200a}')
    || c == '\U{2028}' || c == '\U{2029}' || c == '\U{202f}'
    || c == '\U{205f}' || c == '\U{3000}'
  }

  predicate IsDigit(c: char) {
    '0' <= c <= '9'
  }

  /** A member of the character class `[\d\.]`. */
  predicate IsNumChar(c: char) {
    IsDigit(c) || c == '.'
  }

  function LowerAscii(c: char): char {
    if 'A' <= c <= 'Z' then (c as int + 32) as char else c
  }

  function UpperAscii(c: char): char {
    if 'a' <= c <= 'z' then (c as int - 32) as char else c
  }

  function LowerStr(s: string): (t: string)
    ensures |t| == |s|
  {
    seq(|s|, k requires 0 <= k < |s| => LowerAscii(s[k]))
  }

  function UpperStr(s: string): (t: string)
    ensures |t| == |s|
  {
    seq(|s|, k requires 0 <= k < |s| => UpperAscii(s[k]))
  }

  /** Two characters an ignore-case match cannot tell apart. */
  predicate SameFold(a: char, b: char) {
    LowerAscii(a) == LowerAscii(b)
  }

  ghost predicate SameFoldStr(s: string, t: string) {
    |s| == |t| && forall k :: 0 <= k < |s| ==> SameFold(s[k], t[k])
  }

  /** Changing the case of a message keeps every character in its fold class. */
  lemma CaseChangesKeepFold(s: string)
    ensures SameFoldStr(LowerStr(s), s)
    ensures SameFoldStr(UpperStr(s), s)
  {
  }

  /** Whitespace, digits and the dot have no case partner: the only
      character that folds like one of them is that character itself. */
  lemma FoldFixesNonLetters(a: char, b: char)
    requires SameFold(a, b)
    requires IsSpace(a) || IsNumChar(a)
    ensures a == b
  {
  }

  /** Total number of characters in `lines`. */
  function TotalLength(lines: seq<string>): nat
    decreases |lines|
  {
    if |lines| == 0 then 0 else |lines[0]| + TotalLength(lines[1..])
  }

  /** `"\n".join(lines)`: the lines in order, one separator between each
      pair, nothing added at either end. */
  function Join(lines: seq<string>): (r: string)
    ensures |lines| == 0 ==> r == ""
    ensures |lines| > 0 ==> |r| == TotalLength(lines) + |lines| - 1
    ensures |lines| > 0 ==> r[..|lines[0]|] == lines[0]
    ensures |lines| > 1 ==> r[|lines[0]|] == '\n'
    decreases |lines|
  {
    if |lines| == 0 then ""
    else if |lines| == 1 then lines[0]
    else lines[0] + "\n" + Join(lines[1..])
  }

  /** `t.split("\n")`: always at least one piece. */
  function Split(t: string): (pieces: seq<string>)
    ensures |pieces| > 0
    decreases |t|
  {
    if |t| == 0 then [""]
    else
      var rest := Split(t[1..]);
      if t[0] == '\n' then [""] + rest
      else [[t[0]] + rest[0]] + rest[1..]
  }

  ghost predicate NoNewline(s: string) {
    forall k :: 0 <= k < |s| ==> s[k] != '\n'
  }

  lemma {:induction false} SplitNoNewline(l: string)
    requires NoNewline(l)
    ensures Split(l) == [l]
    decreases |l|
  {
    if |l| > 0 {
      SplitNoNewline(l[1..]);
      assert [l[0]] + l[1..] == l;
    }
  }

  lemma {:induction false} SplitLine(l: string, t: string)
    requires NoNewline(l)
    ensures Split(l + "\n" + t) == [l] + Split(t)
    decreases |l|
  {
    if |l| == 0 {
      assert l + "\n" + t == "\n" + t;
      assert ("\n" + t)[1..] == t;
    } else {
      var u := l + "\n" + t;
      assert u[0] == l[0];
      assert u[1..] == l[1..] + "\n" + t;
      SplitLine(l[1..], t);
      assert [l[0]] + l[1..] == l;
    }
  }

  /** Splitting the joined text on newlines gives the lines back, provided
      no line holds a newline of its own. */
  lemma {:induction false} SplitJoin(lines: seq<string>)
    requires |lines| > 0
    requires forall k :: 0 <= k < |lines| ==> NoNewline(lines[k])
    ensures Split(Join(lines)) == lines
    decreases |lines|
  {
    if |lines| == 1 {
      SplitNoNewline(lines[0]);
    } else {
      SplitJoin(lines[1..]);
      SplitLine(lines[0], Join(lines[1..]));
      assert [lines[0]] + lines[1..] == lines;
    }
  }
}

=== FILE: transcript.dfy ===
/** The conversation transcript (`chat_history`) and the two things the
    resolver derives from it before calling the collaborator: the
    role-tagged history text and the last filters an earlier turn carried. */
module Transcript {
  import opened Results
  import opened Text

  /** A value of a filter map, as the function-call arguments carry them. */
  datatype Value = Null | Num(number: real) | Str(text: string) | List(items: seq<Value>)

  /** A filter set keyed by field name (`city`, `bhk_list`, `budget_min_cr`, ...). */
  type FilterMap = map<string, Value>

  /** One element of the transcript: a dict whose `role`, `content` and
      `filters` keys may each be absent (`None` also stands for a `filters`
      value of `None`), or any value that is not a dict. */
  datatype Entry =
    | Message(role: Option<string>, content: Option<string>, filters: Option<FilterMap>)
    | NotADict

  /** `isinstance(e, dict) and e.get('filters')` is truthy: a non-empty map. */
  predicate HasFilters(e: Entry) {
    e.Message? && e.filters.Some? && |e.filters.value| > 0
  }

  /** A dict entry missing a key the history line reads. */
  predicate MissingKey(e: Entry) {
    e.Message? && (e.role.None? || e.content.None?)
  }

  /** The `role: content` line of a complete dict entry. */
  function Line(e: Entry): string
    requires e.Message? && !MissingKey(e)
  {
    e.role.value + ": " + e.content.value
  }

  /** The lines one entry contributes: none for a non-dict, `KeyError` for
      a dict without `role` (looked up first) or `content`. */
  function EntryLine(e: Entry): (r: Result<seq<string>>)
    ensures r.Failure? <==> MissingKey(e)
    ensures e.Message? && e.role.None? ==> r == Failure(KeyError("role"))
    ensures e.Message? && e.role.Some? && e.content.None? ==> r == Failure(KeyError("content"))
    ensures r.Success? ==> r.value == if e.Message? then [Line(e)] else []
  {
    match e
    case NotADict => Success([])
    case Message(role, content, _) =>
      if role.None? then Failure(KeyError("role"))
      else if content.None? then Failure(KeyError("content"))
      else Success([Line(e)])
  }

  /** The list comprehension of the history text, evaluated in order; the
      first incomplete dict raises. */
  function HistoryLines(h: seq<Entry>): (r: Result<seq<string>>)
    ensures r.Failure? <==> exists k :: 0 <= k < |h| && MissingKey(h[k])
    ensures forall k :: 0 <= k < |h| && MissingKey(h[k]) && (forall j :: 0 <= j < k ==> !MissingKey(h[j]))
                        ==> r == Failure(EntryLine(h[k]).error)
    ensures r.Failure? ==> r.error == KeyError("role") || r.error == KeyError("content")
    decreases |h|
  {
    if |h| == 0 then Success([])
    else
      var first :- EntryLine(h[0]);
      var rest :- HistoryLines(h[1..]);
      Success(first + rest)
  }

  /** The history text sent to the collaborator: one line per dict entry. */
  function FormatHistory(h: seq<Entry>): (r: Result<string>)
    ensures r.Success? <==> forall k :: 0 <= k < |h| ==> !MissingKey(h[k])
    ensures r.Failure? ==> r.error == KeyError("role") || r.error == KeyError("content")
  {
    var lines :- HistoryLines(h);
    Success(Join(lines))
  }

  /** The dict entries of `h`, in order. */
  function Dicts(h: seq<Entry>): (d: seq<Entry>)
    ensures forall k :: 0 <= k < |d| ==> d[k].Message?
    ensures forall e :: e in d <==> e in h && e.Message?
    decreases |h|
  {
    if |h| == 0 then []
    else (if h[0].Message? then [h[0]] else []) + Dicts(h[1..])
  }

  /** The filter works entry by entry: filtering a concatenation
      concatenates the filtered parts, so order and repetitions are kept. */
  lemma {:induction false} DictsAppend(a: seq<Entry>, b: seq<Entry>)
    ensures Dicts(a + b) == Dicts(a) + Dicts(b)
    decreases |a|
  {
    if |a| > 0 {
      assert (a + b)[0] == a[0];
      assert (a + b)[1..] == a[1..] + b;
      DictsAppend(a[1..], b);
    } else {
      assert a + b == b;
    }
  }

  /** On a single entry the filter keeps exactly the dicts. */
  lemma DictsSingle(e: Entry)
    ensures Dicts([e]) == if e.Message? then [e] else []
  {
  }

  /** Entries that are not dicts contribute nothing and raise nothing. */
  lemma {:induction false} HistorySkipsNonDicts(h: seq<Entry>)
    ensures HistoryLines(h) == HistoryLines(Dicts(h))
    ensures FormatHistory(h) == FormatHistory(Dicts(h))
    decreases |h|
  {
    if |h| > 0 {
      HistorySkipsNonDicts(h[1..]);
      var d := Dicts(h);
      if h[0].Message? {
        assert d[0] == h[0] && d[1..] == Dicts(h[1..]);
      } else {
        assert d == Dicts(h[1..]);
        assert EntryLine(h[0]) == Success([]);
        var rest := HistoryLines(h[1..]);
        if rest.Success? {
          assert [] + rest.value == rest.value;
        }
      }
    }
  }

  /** A transcript of complete dicts gives one line per entry, in
      conversation order. */
  lemma {:induction false} HistoryLinesInOrder(h: seq<Entry>)
    requires forall k :: 0 <= k < |h| ==> h[k].Message? && !MissingKey(h[k])
    ensures HistoryLines(h).Success?
    ensures |HistoryLines(h).value| == |h|
    ensures forall k :: 0 <= k < |h| ==> HistoryLines(h).value[k] == Line(h[k])
    decreases |h|
  {
    if |h| > 0 {
      HistoryLinesInOrder(h[1..]);
      assert EntryLine(h[0]) == Success([Line(h[0])]);
      var rest := HistoryLines(h[1..]).value;
      assert HistoryLines(h).value == [Line(h[0])] + rest;
      forall k | 1 <= k < |h|
        ensures HistoryLines(h).value[k] == Line(h[k])
      {
        assert h[1..][k - 1] == h[k];
      }
    }
  }

  /** Round trip: when no role or content holds a newline, splitting the
      history text on newlines recovers the `role: content` lines. */
  lemma FormatHistorySplits(h: seq<Entry>)
    requires |h| > 0
    requires forall k :: 0 <= k < |h| ==>
               && h[k].Message? && !MissingKey(h[k])
               && NoNewline(h[k].role.value) && NoNewline(h[k].content.value)
    ensures FormatHistory(h).Success?
    ensures |Split(FormatHistory(h).value)| == |h|
    ensures forall k :: 0 <= k < |h| ==> Split(FormatHistory(h).value)[k] == Line(h[k])
  {
    HistoryLinesInOrder(h);
    var lines := HistoryLines(h).value;
    forall k | 0 <= k < |lines|
      ensures NoNewline(lines[k])
    {
      var r, c := h[k].role.value, h[k].content.value;
      assert lines[k] == r + ": " + c;
      forall m | 0 <= m < |lines[k]|
        ensures lines[k][m] != '\n'
      {
        if m < |r| {
          assert lines[k][m] == r[m];
        } else if m >= |r| + 2 {
          assert lines[k][m] == c[m - |r| - 2];
        }
      }
    }
    SplitJoin(lines);
  }

  /** The highest index before the final entry whose `filters` is truthy. */
  ghost predicate LatestWithFilters(h: seq<Entry>, k: int) {
    && 0 <= k < |h| - 1
    && HasFilters(h[k])
    && forall j :: k < j < |h| - 1 ==> !HasFilters(h[j])
  }

  /** The backward scan over indices `n - 1` down to `0`. */
  function LastFiltersBefore(h: seq<Entry>, n: nat): (f: FilterMap)
    requires n <= |h|
    ensures forall k :: 0 <= k < n && HasFilters(h[k]) && (forall j :: k < j < n ==> !HasFilters(h[j]))
                        ==> f == h[k].filters.value
    ensures (forall k :: 0 <= k < n ==> !HasFilters(h[k])) ==> f == map[]
    decreases n
  {
    if n == 0 then map[]
    else if HasFilters(h[n - 1]) then h[n - 1].filters.value
    else LastFiltersBefore(h, n - 1)
  }

  /** `last_filters`: the scan starts at the second-to-last entry, so the
      latest message itself is never consulted. */
  function LastFilters(h: seq<Entry>): (f: FilterMap)
    ensures forall k :: LatestWithFilters(h, k) ==> f == h[k].filters.value
    ensures (forall k :: 0 <= k < |h| - 1 ==> !HasFilters(h[k])) ==> f == map[]
    ensures |h| <= 1 ==> f == map[]
  {
    if |h| == 0 then map[] else LastFiltersBefore(h, |h| - 1)
  }
}
